=== FILE: README.md ===
# MoodTunes decision logic in Dafny

MoodTunes reads facial expressions from a webcam and plays music that fits the mood. A face detector gives seven emotion confidences. They are ranked, and the dominant label picks a mood profile: genre seeds plus valence and energy ranges. That profile drives a recommendation query to the Spotify catalog. The tracks that come back feed a small music player. Every dependency has a fallback:
- a camera denial or a detector failure switches to a mock generator that cycles happy, sad, neutral, surprised;
- a missing token or a failed catalog call serves canned tracks.

This project models the pure decision logic behind that pipeline as immutable datatypes and total functions. React, timers and the network are left out. Five modules follow the five source files of the core:

- `Types` (`types.dfy`): labels (seven cases plus `Unknown(text)`), scores, detection results, tracks, playlists, camera state.
- `Emotions` (`emotions.dfy`): the mood table, the lookup with its neutral default, and the aggregator. The aggregator is a stable descending insertion sort over the seven entries. Its ranking is shown to be the only stable sort of the input.
- `SpotifyService` (`spotify_service.dfy`): the token state, the recommendation policy with its fallback, the genre search, canned tracks, and the mapping from catalog records to tracks.
- `MusicPlayer` (`music_player.dfy`): the transport state machine (index, isPlaying, progress).
- `FacialDetection` (`facial_detection.dfy`): the models-loaded gate, camera state transitions, one live tick and one mock tick.
- `App` (`app.dfy`): the session state, mood de-duplication, the loading flag, the detection switch, what the page shows, and end-to-end scenarios.

Inputs that the model takes as parameters:
- the catalog's answer to a request (`Answered(records)` or `Failed`);
- the camera's answer (`Granted` or `Denied`);
- the detector's answer for a frame (`Faces(list)` or `DetectorFailed`);
- whether model loading succeeded;
- whether `audio.play()` succeeds;
- whether reading browser storage throws;
- whether browser storage refuses the token write;
- the `Math.random()` draws, as reals in [0, 1).

Confidences and feature ranges are exact `real`s.

In these places the model follows the code, where a reader might expect otherwise:
- A failed live tick starts the mock generator, and every further failed tick starts another one (src/components/FacialDetection.tsx:118): each call begins its own endless loop at position 0 (src/components/FacialDetection.tsx:126), and the live loop keeps rescheduling itself, so several loops can emit side by side. `FacialDetection.MockRunCycles` describes one such loop.
- Repeated moods are suppressed in the application shell (`App.HandleEmotionDetected`), not in the detection component.
- Clicking a list item changes only the index. Playback and progress are not reset.
- Skipping with next or previous stops playback but keeps the progress value.
- Nothing discards a slow response for an older mood.

## Model

| member | source | states |
|---|---|---|
| Types.Parse | src/types.ts:1-10 | reading an emotion string gives a label whose name is that string; the result is one of the seven labels exactly when the string is one of their names |
| Types.ParseName | src/types.ts:6-10 | parsing a label's name returns the label exactly when the label is canonical (an `Unknown` never wraps a known name) |
| Types.NameInjective | src/types.ts:6-10 | two canonical labels with the same name are equal, so comparing dominant labels as strings is comparing labels |
| Emotions.ConfigEntry | src/utils/emotions.ts:1-58 | the table has an entry for each of the seven labels and none for anything else; every entry has a non-empty genre list and valence and energy ranges with 0 ≤ min ≤ max ≤ 1 |
| Emotions.GetEmotionConfig | src/utils/emotions.ts:60-62 | for one of the seven names the result is that label's entry; for every other string it is the neutral entry; the result is always a valid entry |
| Emotions.GetEmotionConfigOfLabel | src/utils/emotions.ts:60-62 | looking up the name of a known label gives exactly that label's table entry |
| Emotions.GetEmotionConfigAsWritten | src/utils/emotions.ts:60-62 | the lookup as written on an object literal: for a name inherited from `Object.prototype` it returns that member, and only otherwise a table entry, which then agrees with the intended lookup |
| Emotions.InheritedNameEscapesDefault | src/utils/emotions.ts:60-62 | for "toString" the written lookup gives the inherited member, while the intended lookup gives the neutral entry |
| Emotions.Midpoint | src/services/SpotifyService.ts:88-89 | the target value is equidistant from both ends of the range and lies inside a well-formed range |
| Emotions.Entries | src/utils/emotions.ts:65-73 | before sorting, entry i pairs the i-th label of the fixed order happy, sad, angry, surprised, fearful, disgusted, neutral with its own confidence |
| Emotions.Insert | src/utils/emotions.ts:75 | insertion adds exactly one entry: the result is the input multiset plus the new entry |
| Emotions.Sort | src/utils/emotions.ts:75 | the sort output is a permutation of its input of the same length |
| Emotions.InsertNonIncreasing | src/utils/emotions.ts:75 | inserting into a non-increasing sequence keeps it non-increasing by confidence |
| Emotions.InsertRanked | src/utils/emotions.ts:75 | inserting an entry that is earlier in the fixed order than every entry of a ranked sequence keeps it ranked; this is the stability step |
| Emotions.SortNonIncreasing | src/utils/emotions.ts:75 | the sort output is non-increasing by confidence for any input |
| Emotions.SortRanked | src/utils/emotions.ts:75 | for input in the fixed label order, the output is ordered by confidence descending, with ties in the fixed order |
| Emotions.MapFaceApiEmotion | src/utils/emotions.ts:64-82 | `all` has seven entries and holds every label with its own input confidence, so it is a permutation of the listed entries. It is ranked by confidence descending with stable ties. `dominant` and `confidence` are the head's, and that confidence is at least every label's input confidence |
| Emotions.MapFaceApiEmotionPermutation | src/utils/emotions.ts:65-75 | the ranked list has exactly the multiset of the listed entries |
| Emotions.PermutationMembers | src/utils/emotions.ts:65-75 | any rearrangement of the listed entries holds each of the seven labels with its own input confidence, and no other entry |
| Emotions.RankingDistinct | src/utils/emotions.ts:65-75 | a ranked rearrangement of the entries names each label exactly once |
| Emotions.RankedNonIncreasing | src/utils/emotions.ts:75 | a stable descending ranking is non-increasing in confidence |
| Emotions.RankedHeadMax | src/utils/emotions.ts:77-80 | the head of a ranking, which becomes the dominant label, is at least as confident as every entry |
| Emotions.RankedSortOfEntries | src/utils/emotions.ts:75-80 | sorting the listed entries gives a stable descending ranking whose head is at least every label's input confidence |
| Emotions.MapFaceApiEmotionTies | src/utils/emotions.ts:65-75 | entries with equal confidence keep the fixed order happy, sad, angry, surprised, fearful, disgusted, neutral |
| Emotions.RankedPermutationUnique | src/utils/emotions.ts:75 | two ranked arrangements of the same entries are equal |
| Emotions.MapFaceApiEmotionUnique | src/utils/emotions.ts:64-82 | determinism: any stable descending sort of the seven entries yields exactly the ranking computed here |
| SpotifyService.Authenticate | src/services/SpotifyService.ts:9-23 | answers true exactly when storage is readable and holds a non-empty token, and then adopts that token; otherwise the service is unchanged |
| SpotifyService.SetAccessToken | src/services/SpotifyService.ts:25-28 | always sets the in-memory token to the given string; the stored token becomes that string when the write succeeds and keeps its old value when storage refuses the write, which then throws |
| SpotifyService.TokenSurvivesReload | src/services/SpotifyService.ts:9-28 | a token whose write succeeded is adopted by the next authentication check after a reload exactly when it is non-empty; after a refused write the reload sees storage as it was |
| SpotifyService.SplitJoin | src/services/SpotifyService.ts:87 | a comma-joined list of comma-free genre names splits back into the same list, so the seed parameter names exactly the chosen genres |
| SpotifyService.GenresAtLeastThree | src/utils/emotions.ts:1-58 | every table entry lists at least three genres, so two seed genres are always available |
| SpotifyService.GenresCommaFree | src/utils/emotions.ts:1-58 | the two seed genres of every table entry contain no comma |
| SpotifyService.QueryFor | src/services/SpotifyService.ts:86-91 | the request asks for 15 tracks; the target valence and energy are the midpoints of their ranges and lie inside them; the seed list splits into the first two genres, in order |
| SpotifyService.ToTrack | src/services/SpotifyService.ts:94-101 | a track copies the six fields id, name, artists, album, preview link and external link from its record |
| SpotifyService.MapTracks | src/services/SpotifyService.ts:94-101 | the mapping keeps the length and order of the records and the six fields of each |
| SpotifyService.MapTracksAppend | src/services/SpotifyService.ts:94-101 | the mapping works record by record: mapping a concatenation is concatenating the mappings |
| SpotifyService.MockTracks | src/services/SpotifyService.ts:111-152 | "sad" gives the tracks mock3 and mock4; every other string gives mock1 and mock2; always two tracks, none with a preview |
| SpotifyService.MockTracksAsWritten | src/services/SpotifyService.ts:151 | the canned lookup as written: a name inherited from `Object.prototype` returns that member instead of a track list; otherwise it agrees with the intended lookup |
| SpotifyService.MockTracksInheritedName | src/services/SpotifyService.ts:151 | for "constructor" the written lookup gives the inherited constructor, while the intended lookup gives the happy list |
| SpotifyService.GetRecommendations | src/services/SpotifyService.ts:76-109 | the playlist's emotion is always the requested one. Without a token nothing is sent and the canned tracks are served. A request is sent exactly when there is a token and the emotion is a known label, and then it is the entry's query with the first two genres. The catalog serves exactly when a request was sent and answered, and then its tracks are the mapped records. Every other path serves the non-empty canned tracks |
| SpotifyService.NoTokenIgnoresCatalog | src/services/SpotifyService.ts:77-80 | without a token the result does not depend on the catalog's answer |
| SpotifyService.SearchTracks | src/services/SpotifyService.ts:37-74 | without a token the search fails with "Not authenticated with Spotify" and does not fall back. Otherwise a request goes out exactly for a known emotion: one of its genres, kind "track", market "US", the given limit or 20. An answered request gives the mapped records; every other path gives the canned tracks |
| SpotifyService.SearchAgreesWithRecommendations | src/services/SpotifyService.ts:37-109 | with a token, the genre search and the recommendation call serve the same tracks for the same emotion and catalog answer: the catalog's records when a request for a known label is answered, the canned tracks otherwise |
| MusicPlayer.Rem | src/components/MusicPlayer.tsx:64-72 | the truncating remainder agrees with the mathematical one on non-negative operands, stays below the divisor in magnitude, and takes the sign of the dividend |
| MusicPlayer.OnTracksChanged | src/components/MusicPlayer.tsx:18-22 | a new track list resets the index to 0, playback to paused and progress to 0, whatever the previous state |
| MusicPlayer.NextTrack | src/components/MusicPlayer.tsx:64-67 | the index becomes (i+1) mod len and stays in [0,len); playback stops; progress is untouched |
| MusicPlayer.PrevTrack | src/components/MusicPlayer.tsx:69-72 | the index becomes the previous one, wrapping from 0 to len-1, and stays in [0,len); one step forward from it gives back the old index; playback stops; progress is untouched |
| MusicPlayer.SelectTrack | src/components/MusicPlayer.tsx:178 | clicking item k sets the index to k and changes nothing else |
| MusicPlayer.TogglePlayPause | src/components/MusicPlayer.tsx:46-62 | with no audio element nothing changes. Otherwise playing becomes paused, and paused becomes playing exactly when `play()` succeeds. Index and progress are untouched |
| MusicPlayer.OnEnded | src/components/MusicPlayer.tsx:33-35 | the end of a track performs the forward step |
| MusicPlayer.Render | src/components/MusicPlayer.tsx:74-80 | "No tracks available" is shown exactly when the index is outside the list. Otherwise the selected track is shown, playable exactly when it has a non-empty preview link |
| MusicPlayer.EmptyListShowsNoTracks | src/components/MusicPlayer.tsx:74-80 | an empty list always shows "No tracks available" |
| MusicPlayer.NewListShowsFirstTrack | src/components/MusicPlayer.tsx:18-22 | after a new non-empty list the player shows its first track, paused |
| MusicPlayer.TransportKeepsRange | src/components/MusicPlayer.tsx:64-72 | reset, next, previous, select, toggle and ended all keep a valid index valid |
| MusicPlayer.PrevNextInverse | src/components/MusicPlayer.tsx:64-72 | previous after next, and next after previous, restore the original index |
| MusicPlayer.NextTimes | src/components/MusicPlayer.tsx:64-67 | after one or more forward steps playback is stopped, and progress is never changed |
| MusicPlayer.NextTimesIndex | src/components/MusicPlayer.tsx:64-67 | after n ≤ len forward steps the index has moved n places, wrapping once past the end |
| MusicPlayer.FullCycleReturns | src/components/MusicPlayer.tsx:64-67 | len consecutive forward steps return to the starting index |
| MusicPlayer.EndedAdvancesOnce | src/components/MusicPlayer.tsx:33-35 | the ended event moves exactly one place: the same as one forward step, different from zero steps (len ≥ 2) and from two steps (len ≥ 3) |
| FacialDetection.LoadModels | src/components/FacialDetection.tsx:35-48 | model loading ends with the loaded flag set, whether it succeeded or failed, and changes nothing else |
| FacialDetection.CameraEffect | src/components/FacialDetection.tsx:27-33 | the camera is started exactly when detection is active and the models have finished loading, and stopped in every other case |
| FacialDetection.GateIgnoresLoadOutcome | src/components/FacialDetection.tsx:27-48 | once loading has finished, the gate opens exactly when detection is active, whatever the load outcome |
| FacialDetection.NoStartBeforeLoad | src/components/FacialDetection.tsx:21-33 | before model loading has finished the camera is never started |
| FacialDetection.StartCamera | src/components/FacialDetection.tsx:50-77 | granted with the video mounted: {active, permitted, no error}, and live detection follows. Granted without a video element: no change. Denied: {inactive, not permitted, the denial message}, and mock detection starts |
| FacialDetection.StopCamera | src/components/FacialDetection.tsx:79-86 | stopping clears `isActive` only; permission and error are kept |
| FacialDetection.ApplyGate | src/components/FacialDetection.tsx:27-33 | the gate effect calls start when active and loaded, and stop otherwise |
| FacialDetection.LiveIffGateOpenAndGranted | src/components/FacialDetection.tsx:27-62 | starting from an inactive camera, the camera is live after the gate exactly when detection is active, the models are loaded, the stream is granted and the video is mounted |
| FacialDetection.DenialIsSticky | src/components/FacialDetection.tsx:153-175 | after a denial the video element is replaced by the error panel, so a later grant in the same component leaves the camera inactive |
| FacialDetection.StatusBadge | src/components/FacialDetection.tsx:196-207 | the badge reads Live exactly when the camera is active, and Demo exactly when it is inactive with an error shown |
| FacialDetection.DeniedShowsDemo | src/components/FacialDetection.tsx:68-77 | a denial shows the error panel and the Demo badge |
| FacialDetection.LiveTick | src/components/FacialDetection.tsx:88-122 | when inactive or unmounted the tick does nothing and is not rescheduled. Otherwise it emits exactly when at least one face is found, the ranking of the first face; a failure starts mock detection; the next tick is scheduled in every case |
| FacialDetection.LiveEmissionIsDominant | src/components/FacialDetection.tsx:97-101 | an active, mounted tick that finds a face always emits, and the emitted dominant label has the highest of the seven confidences of the first face |
| FacialDetection.MockEmotion | src/components/FacialDetection.tsx:131-138 | the dominant label is the cycle's label. `all` lists the four cycle labels in order: the active one in [0.7,1.0), the others in [0,0.3), so the active one is strictly highest. The top-level confidence is in [0.7,1.0) |
| FacialDetection.MockConfidenceIsSeparateDraw | src/components/FacialDetection.tsx:133-137 | the top-level confidence is its own draw and can differ from the active entry's confidence |
| FacialDetection.MockTick | src/components/FacialDetection.tsx:128-145 | an inactive tick emits nothing and ends the loop; an active tick emits the mock result for its position and advances the position, wrapping after the fourth |
| FacialDetection.MockRun | src/components/FacialDetection.tsx:124-148 | consecutive active ticks emit one label per tick |
| FacialDetection.MockRunCycles | src/components/FacialDetection.tsx:125-143 | the k-th emitted label is the cycle's label at (start + k) mod 4: happy, sad, neutral, surprised, then around again |
| FacialDetection.MockActiveIsStrictMax | src/components/FacialDetection.tsx:134-137 | for every draw, every entry other than the active label has a strictly lower confidence |
| App.CheckAuthentication | src/App.tsx:21-24 | the session's authentication flag becomes the check's answer and nothing else changes |
| App.OnAuthenticated | src/App.tsx:54 | the handler that both the token form and the demo button call sets the flag and changes nothing else |
| App.HandleEmotionDetected | src/App.tsx:26-33 | an emission with the same dominant label changes nothing and fetches nothing. Any other becomes the current emotion, sets the loading flag, keeps the old recommendations, and fetches its dominant label |
| App.FinishFetch | src/App.tsx:32-39 | a delivered playlist replaces the recommendations; an exception keeps the old ones; loading is cleared on both paths |
| App.StartDetection | src/App.tsx:42-44 | starting sets detection active and changes nothing else |
| App.StopDetection | src/App.tsx:46-49 | stopping sets detection inactive and clears the current emotion |
| App.RestartAlwaysFetches | src/App.tsx:27-49 | the first emission after a stop (and restart) always starts a fetch |
| App.FetchIffDominantChanged | src/App.tsx:27 | a fetch follows an emission exactly when the dominant label changed; confidence changes alone never trigger one |
| App.View | src/App.tsx:51-222 | an unauthenticated session sees only the auth screen. With detection off the welcome page is shown. Otherwise the dashboard shows the spinner exactly while loading, and the player exactly when not loading, with tracks and a current emotion, labelled with its dominant label |
| App.SpinnerDuringFetch | src/App.tsx:207-211 | while a fetch is outstanding the dashboard shows the spinner |
| App.Handle | src/App.tsx:26-40 | an emission with an unchanged mood leaves the session as it was. A changed mood ends with loading cleared, the emission current, and the recommendations served for its dominant label |
| App.FallbackKeepsPlayerFed | src/App.tsx:26-40 | when the catalog fails or there is no token, a new mood always leaves the player visible with the non-empty canned tracks; a demo session has no token, and a token-backed session reaches this only through a catalog failure |
| App.UnchangedMoodFetchesOnce | src/App.tsx:27 | two emissions with the same dominant label start one fetch, not two |
| App.StartUp | src/App.tsx:17-24 | at page load the session is authenticated exactly when storage is readable and holds a non-empty token; an authenticated session then holds that stored token in memory and an unauthenticated one holds none; storage is left as it was; nothing else differs from the initial state |
| App.SubmitToken | src/components/SpotifyAuth.tsx:13-25 | an empty (trimmed) entry is ignored; any other becomes the in-memory token. The session is authenticated afterwards exactly when it already was or the storage write succeeded; a refused write throws before the success timer, so the flag is not raised and storage keeps its old value. Nothing else changes, and a token-backed session stays token-backed |
| App.RefusedWriteThenDemoHasToken | src/components/SpotifyAuth.tsx:13-25 | after a refused storage write the session stays on the auth screen with storage unchanged, and the demo button then opens an authenticated session that does hold the entered token |
| App.HandleInSession | src/App.tsx:26-40 | handling an emission never changes the client or the authentication flag, so a token-backed session stays token-backed |
| App.ContinueDemo | src/components/SpotifyAuth.tsx:70-76 | "Continue with Demo Mode" authenticates the session and leaves the client unchanged, so the session is token-backed exactly when the client already had a token |
| App.TokenBackedFetchSendsRequest | src/App.tsx:51-57 | in an authenticated session whose flag rests on a token (start-up or the token form, not the demo button) the request is sent exactly for a known label, and the catalog serves exactly when it answers |
| App.DemoSessionHasNoToken | src/components/SpotifyAuth.tsx:70-91 | the demo button, pressed on the auth screen after start-up, opens a session that is authenticated yet holds no token, so it is not token-backed |
| App.TokenlessFetchServesCanned | src/services/SpotifyService.ts:76-80 | without a token no request is sent: the canned tracks for the label are served whatever the catalog would answer, and a new mood leaves exactly those tracks as the recommendations |
| App.DeniedCameraScenario | src/App.tsx:26-40 | a denied camera leads to mock mode and the Demo badge, and the first mock tick emits happy. For a session signed in through the token form with a successful storage write, an answered request fills the player with the mapped catalog tracks. A failed one serves the canned happy tracks, with the player on the first of them, paused |
| App.DemoModeScenario | src/components/SpotifyAuth.tsx:70-91 | the same denied camera in demo mode: nothing stored, the demo button, and the first mock tick emits happy; the session is authenticated but not token-backed, and for any catalog answer the player shows the canned happy tracks, on the first of them, paused |

## Left out

- Rendering, CSS classes, icons, colours and descriptions of the mood table: presentation only. The table keeps genres, valence and energy.
- The token form's markup, its loading flag and its one-second delay before reporting success are left out. After a refused storage write that flag is never cleared, so the submit button stays disabled on "Connecting..." while the demo button still works; the model keeps only the fact that the session stays unauthenticated. `App.SubmitToken` takes the entered text after trimming, since trimming is string handling outside the model.
- The face detector, its model files, `getUserMedia`, stopping the stream's tracks, and drawing on the canvas are foreign capabilities. They appear as the detector's and camera's answers. Because drawing is left out, the case where drawing throws after an emission (which also starts mock detection) is not modelled.
- Timers, effect scheduling and stale closures are not modelled. The live loop's 1000 ms cadence and the mock loop's 1000 ms and 3000 ms delays are left out. Closures keep the `isActive` and current-emotion values from when they were created; each tick instead takes `isActive` as a parameter.
- The detection component is mounted only while detection is active (src/App.tsx:108, 153-156), so its `isActive` prop is always true, and the camera effect (src/components/FacialDetection.tsx:27-33) returns no cleanup. The running program therefore behaves as follows, and the model does not capture it:
  - After Stop Detection `stopCamera` never runs, so the camera stream is never stopped.
  - Once started, the mock loop never ends: its only exit (src/components/FacialDetection.tsx:129) reads the captured `true`, so it keeps calling the application's handler every 3 s.
  - Each loop holds the handler of the render in which it started. The current emotion that handler compares with (src/App.tsx:27) is that render's value, normally none, so in the running app a steady face fetches again on every live tick.
  - The live loop does stop after unmounting, because its guard at src/components/FacialDetection.tsx:89 finds no video element.
  - The suppression in `App.HandleEmotionDetected`, and the inactive branches of `FacialDetection.LiveTick` and `FacialDetection.MockTick`, describe the handler and the ticks applied to the current state, not the running program with its captured values.
- HTTP and browser storage are abstract: the catalog's answer is an input, and stored text is an `Option<string>`. A storage read that throws is the `storageFails` input; a write that storage refuses is the `writeFails` input of `SpotifyService.SetAccessToken` and `App.SubmitToken`.
- Audio progress (`currentTime / duration * 100` with its NaN guard) is floating-point media time. The model's `progress` is only reset or kept.
- The NaN and infinite cases of the sort comparator `b.confidence - a.confidence` are left out: confidences are exact reals, so the comparison is exact.
- The canned tracks' literal data is kept only as far as ids, titles, artists, album names, art links, missing previews and the "#" link.
- SpotifyService.GetRecommendations: the source treats records of type `any` and missing fields as valid input. The model expects six typed fields per record. A malformed response body (no `tracks` array) counts as `Failed`.
- SpotifyService.GetRecommendations: the canned tier uses the corrected lookup `SpotifyService.MockTracks`. For a name inherited from `Object.prototype` such as "constructor", with a token set, the source throws at src/services/SpotifyService.ts:87 and then serves that inherited member through `getMockTracks`; the model serves the happy list (see Findings). Every caller in the application passes a dominant label, so this path is not reached there.
- SpotifyService.SearchTracks: the same corrected canned lookup. For an inherited name the source fails at src/services/SpotifyService.ts:49 and its fallback serves the inherited member; the model serves the happy list.
- MusicPlayer.NextTrack: requires a non-empty list. The player is mounted only with a non-empty list (src/App.tsx:212), and an empty list renders no controls (src/components/MusicPlayer.tsx:74-80), so `(i+1) % 0` cannot happen.
- MusicPlayer.PrevTrack: requires a non-empty list, for the same reason.
- FacialDetection.MockTick: requires a cycle position below 4. The position starts at 0 and is only ever advanced modulo 4.

## Findings

| source | as written | input that shows it | evidently intended | confidence | as-written member | corrected member |
|---|---|---|---|---|---|---|
| src/utils/emotions.ts:60-62 | `emotionConfig[emotion] \|\| emotionConfig.neutral` reads a plain object literal, so inherited `Object.prototype` members are truthy and escape the default | `getEmotionConfig("toString")` returns `Object.prototype.toString`, not the neutral entry | every string other than the seven labels maps to the neutral entry | not executed; follows from ECMAScript property lookup | Emotions.InheritedNameEscapesDefault | Emotions.GetEmotionConfig |
| src/services/SpotifyService.ts:151 | `mockTracks[emotion] \|\| mockTracks.happy` has the same inherited-member lookup | `getMockTracks("constructor")` returns the `Object` constructor, not a track list | every string other than "sad" (and "happy") maps to the happy list | not executed; follows from ECMAScript property lookup | SpotifyService.MockTracksInheritedName | SpotifyService.MockTracks |

=== FILE: app.dfy ===
/** The application shell: the session state, the mood de-duplication rule,
    the fetch lifecycle with its loading flag, the detection switch, and what
    the page shows. Closes with end-to-end runs through all components. */
module App {
  import opened Types
  import SpotifyService
  import MusicPlayer
  import FacialDetection

  datatype AppState = AppState(
    authenticated: bool,
    current: Option<DetectedEmotion>,
    recommendations: seq<Track>,
    detectionActive: bool,
    loading: bool)

  const InitialApp: AppState := AppState(false, None, [], false, false)

  /** Records the answer of the start-up authentication check. */
  function CheckAuthentication(st: AppState, authenticated: bool): (r: AppState)
    ensures r.authenticated == authenticated
    ensures r.(authenticated := st.authenticated) == st
  {
    st.(authenticated := authenticated)
  }

  /** The token form reported success. */
  function OnAuthenticated(st: AppState): (r: AppState)
    ensures r.authenticated
    ensures r.(authenticated := st.authenticated) == st
  {
    st.(authenticated := true)
  }

  /** The emission repeats the current dominant label (compared as strings). */
  predicate SameDominant(st: AppState, e: DetectedEmotion)
  {
    st.current.Some? && Name(e.dominant) == Name(st.current.value.dominant)
  }

  /** The state after an emission and the emotion string fetched, if any. */
  datatype Emission = Emission(state: AppState, fetch: Option<string>)

  /** An emission with an unchanged dominant label is dropped; any other
      becomes the current emotion, sets the loading flag and starts a fetch
      for its dominant label. */
  function HandleEmotionDetected(st: AppState, e: DetectedEmotion): (r: Emission)
    ensures SameDominant(st, e) ==> r == Emission(st, None)
    ensures !SameDominant(st, e) ==> r.fetch == Some(Name(e.dominant))
    ensures !SameDominant(st, e) ==>
      r.state.current == Some(e) && r.state.loading
      && r.state.recommendations == st.recommendations
      && r.state.authenticated == st.authenticated && r.state.detectionActive == st.detectionActive
  {
    if SameDominant(st, e) then Emission(st, None)
    else Emission(st.(current := Some(e), loading := true), Some(Name(e.dominant)))
  }

  /** How the awaited fetch ended: a playlist, or an exception. */
  datatype FetchOutcome = Delivered(playlist: Playlist) | Threw

  /** The end of a fetch: a delivered playlist replaces the recommendations,
      an exception keeps the old ones, and the loading flag is cleared either way. */
  function FinishFetch(st: AppState, outcome: FetchOutcome): (r: AppState)
    ensures !r.loading
    ensures outcome.Delivered? ==> r.recommendations == outcome.playlist.tracks
    ensures outcome.Threw? ==> r.recommendations == st.recommendations
    ensures r.current == st.current && r.authenticated == st.authenticated
    ensures r.detectionActive == st.detectionActive
  {
    match outcome
    case Delivered(p) => st.(recommendations := p.tracks, loading := false)
    case Threw => st.(loading := false)
  }

  function StartDetection(st: AppState): (r: AppState)
    ensures r.detectionActive
    ensures r.(detectionActive := st.detectionActive) == st
  {
    st.(detectionActive := true)
  }

  /** Stopping detection also forgets the current emotion. */
  function StopDetection(st: AppState): (r: AppState)
    ensures !r.detectionActive && r.current.None?
    ensures r.recommendations == st.recommendations && r.loading == st.loading
    ensures r.authenticated == st.authenticated
  {
    st.(detectionActive := false, current := None)
  }

  /** After a stop, the first emission always starts a fetch. */
  lemma RestartAlwaysFetches(st: AppState, e: DetectedEmotion)
    ensures HandleEmotionDetected(StopDetection(st), e).fetch == Some(Name(e.dominant))
    ensures HandleEmotionDetected(StartDetection(StopDetection(st)), e).fetch == Some(Name(e.dominant))
  {
  }

  /** A fetch follows an emission exactly when the dominant label changed;
      confidence changes alone never trigger one. */
  lemma FetchIffDominantChanged(st: AppState, e: DetectedEmotion)
    ensures HandleEmotionDetected(st, e).fetch.Some? <==> !SameDominant(st, e)
    ensures st.current.Some? && e.dominant == st.current.value.dominant ==> HandleEmotionDetected(st, e).fetch.None?
  {
  }

  // ---------------------------------------------------------------------
  // The session and its token
  // ---------------------------------------------------------------------

  /** The session state together with the catalog client it talks to. */
  datatype Session = Session(app: AppState, service: SpotifyService.Service)

  /** The authentication flag, when raised, rests on a usable token. Start-up
      and the token form keep this; the demo button breaks it. */
  predicate TokenBacked(s: Session)
  {
    s.app.authenticated ==> SpotifyService.HasToken(s.service)
  }

  /** The page load: a fresh client reads storage, and its answer becomes
      the session's authentication flag. */
  function StartUp(stored: Option<string>, storageFails: bool): (s: Session)
    ensures TokenBacked(s)
    ensures s.app.authenticated <==> !storageFails && stored.Some? && stored.value != ""
    ensures s.app.authenticated ==> s.service.accessToken == stored
    ensures !s.app.authenticated ==> s.service.accessToken.None?
    ensures s.service.stored == stored
    ensures s.app.(authenticated := false) == InitialApp
  {
    var auth := SpotifyService.Authenticate(SpotifyService.Load(stored), storageFails);
    Session(CheckAuthentication(InitialApp, auth.authenticated), auth.service)
  }

  /** The token form, given the entered text after trimming: an empty text is
      ignored; any other is set as the token. When the storage write succeeds
      the session becomes authenticated. When it is refused, `setAccessToken`
      throws before the success timer is scheduled: the in-memory token is
      set, but the flag is not raised and the form stays on its auth screen. */
  function SubmitToken(s: Session, token: string, writeFails: bool): (r: Session)
    ensures token == "" ==> r == s
    ensures token != "" ==> r.service.accessToken == Some(token)
    ensures token != "" ==> r.service.stored == if writeFails then s.service.stored else Some(token)
    ensures token != "" ==> (r.app.authenticated <==> s.app.authenticated || !writeFails)
    ensures r.app.(authenticated := s.app.authenticated) == s.app
    ensures TokenBacked(s) ==> TokenBacked(r)
  {
    if token == "" then s
    else
      var svc := SpotifyService.SetAccessToken(s.service, token, writeFails);
      if writeFails then Session(s.app, svc) else Session(OnAuthenticated(s.app), svc)
  }

  /** A refused write leaves the token in memory, so pressing "Continue with
      Demo Mode" afterwards opens a session that does hold a token. */
  lemma RefusedWriteThenDemoHasToken(stored: Option<string>, storageFails: bool, token: string)
    requires !StartUp(stored, storageFails).app.authenticated
    requires token != ""
    ensures var tried := SubmitToken(StartUp(stored, storageFails), token, true);
      && !tried.app.authenticated && tried.service.stored == stored
      && var demo := ContinueDemo(tried);
         demo.app.authenticated && demo.service.accessToken == Some(token) && TokenBacked(demo)
  {
  }

  /** An emission and its fetch, on the session's own client. */
  function HandleInSession(s: Session, e: DetectedEmotion, response: SpotifyService.Response): (r: Session)
    ensures r.service == s.service
    ensures r.app.authenticated == s.app.authenticated
    ensures TokenBacked(s) ==> TokenBacked(r)
  {
    Session(Handle(s.app, s.service, e, response), s.service)
  }

  /** "Continue with Demo Mode": the flag is raised and the client is left
      as it is, so no token is set. */
  function ContinueDemo(s: Session): (r: Session)
    ensures r.app.authenticated
    ensures r.service == s.service
    ensures r.app.(authenticated := s.app.authenticated) == s.app
    ensures TokenBacked(r) <==> SpotifyService.HasToken(s.service)
  {
    Session(OnAuthenticated(s.app), s.service)
  }

  /** A session signed in through start-up or the token form fetches with a
      token, so the request is sent exactly for a known label and the canned
      tracks are served only when the catalog fails or the label is unknown. */
  lemma TokenBackedFetchSendsRequest(s: Session, e: DetectedEmotion, response: SpotifyService.Response)
    requires TokenBacked(s) && s.app.authenticated
    ensures var rec := SpotifyService.GetRecommendations(s.service, Name(e.dominant), response);
      && (rec.query.Some? <==> KnownName(Name(e.dominant)))
      && (rec.served == SpotifyService.Catalog <==> KnownName(Name(e.dominant)) && response.Answered?)
  {
  }

  /** The demo button is shown on the auth screen, that is, when start-up did
      not authenticate. The session it opens is authenticated but holds no
      token, so it is not token-backed. */
  lemma DemoSessionHasNoToken(stored: Option<string>, storageFails: bool)
    requires !StartUp(stored, storageFails).app.authenticated
    ensures var s := ContinueDemo(StartUp(stored, storageFails));
      s.app.authenticated && !SpotifyService.HasToken(s.service) && !TokenBacked(s)
  {
  }

  /** Without a token no request is sent: the fetch serves the canned tracks
      for the label, whatever the catalog would have answered, and handling
      a new mood leaves exactly those tracks as the recommendations. */
  lemma TokenlessFetchServesCanned(s: Session, e: DetectedEmotion, a: SpotifyService.Response, b: SpotifyService.Response)
    requires !SpotifyService.HasToken(s.service)
    ensures var rec := SpotifyService.GetRecommendations(s.service, Name(e.dominant), a);
      && rec.query.None? && rec.served == SpotifyService.Canned
      && rec.playlist.tracks == SpotifyService.MockTracks(Name(e.dominant))
    ensures HandleInSession(s, e, a) == HandleInSession(s, e, b)
    ensures !SameDominant(s.app, e) ==>
      HandleInSession(s, e, a).app.recommendations == SpotifyService.MockTracks(Name(e.dominant))
  {
    SpotifyService.NoTokenIgnoresCatalog(s.service, Name(e.dominant), a, b);
  }

  // ---------------------------------------------------------------------
  // What the page shows
  // ---------------------------------------------------------------------

  datatype Panel = Spinner | PlayerPanel(tracks: seq<Track>, emotion: string) | Prompt

  datatype Screen = AuthScreen | Welcome | Dashboard(panel: Panel)

  predicate PlayerShown(st: AppState)
  {
    !st.loading && |st.recommendations| > 0 && st.current.Some?
  }

  /** Unauthenticated sessions see only the token form; with detection off
      the welcome page; otherwise the dashboard, whose music panel is the
      spinner while loading, the player when there are tracks and a current
      emotion, and the prompt otherwise. */
  function View(st: AppState): (s: Screen)
    ensures s == AuthScreen <==> !st.authenticated
    ensures s.Dashboard? <==> st.authenticated && st.detectionActive
    ensures s.Dashboard? ==> (s.panel.PlayerPanel? <==> PlayerShown(st))
    ensures s.Dashboard? ==> (s.panel == Spinner <==> st.loading)
    ensures s.Dashboard? && s.panel.PlayerPanel? ==>
      s.panel.tracks == st.recommendations && s.panel.emotion == Name(st.current.value.dominant)
  {
    if !st.authenticated then AuthScreen
    else if !st.detectionActive then Welcome
    else if st.loading then Dashboard(Spinner)
    else if |st.recommendations| > 0 && st.current.Some? then
      Dashboard(PlayerPanel(st.recommendations, Name(st.current.value.dominant)))
    else Dashboard(Prompt)
  }

  /** While a fetch is outstanding the dashboard shows the spinner, not the player. */
  lemma SpinnerDuringFetch(st: AppState, e: DetectedEmotion)
    requires st.authenticated && st.detectionActive && !SameDominant(st, e)
    ensures View(HandleEmotionDetected(st, e).state) == Dashboard(Spinner)
  {
  }

  // ---------------------------------------------------------------------
  // End-to-end runs
  // ---------------------------------------------------------------------

  /** An emission, the recommendation fetch it starts, and its completion. */
  function Handle(st: AppState, svc: SpotifyService.Service, e: DetectedEmotion, response: SpotifyService.Response): (r: AppState)
    ensures SameDominant(st, e) ==> r == st
    ensures !SameDominant(st, e) ==>
      && !r.loading && r.current == Some(e)
      && r.recommendations == SpotifyService.GetRecommendations(svc, Name(e.dominant), response).playlist.tracks
      && r.authenticated == st.authenticated && r.detectionActive == st.detectionActive
  {
    var em := HandleEmotionDetected(st, e);
    match em.fetch
    case None => st
    case Some(emotion) =>
      var rec := SpotifyService.GetRecommendations(svc, emotion, response);
      FinishFetch(em.state, Delivered(rec.playlist))
  }

  /** Handling always leaves a non-empty playlist when the catalog fails or
      there is no token: the fallback is never empty. The demo button opens
      an authenticated session without a token; a token-backed session
      reaches this only when the catalog fails. */
  lemma FallbackKeepsPlayerFed(st: AppState, svc: SpotifyService.Service, e: DetectedEmotion, response: SpotifyService.Response)
    requires !SameDominant(st, e)
    requires !SpotifyService.HasToken(svc) || response.Failed?
    requires st.authenticated && st.detectionActive
    ensures PlayerShown(Handle(st, svc, e, response))
  {
  }

  /** Two emissions with the same dominant label start one fetch, not two. */
  lemma UnchangedMoodFetchesOnce(st: AppState, svc: SpotifyService.Service,
                                 e1: DetectedEmotion, e2: DetectedEmotion, response: SpotifyService.Response)
    requires !SameDominant(st, e1)
    requires e2.dominant == e1.dominant
    ensures HandleEmotionDetected(st, e1).fetch.Some?
    ensures HandleEmotionDetected(Handle(st, svc, e1, response), e2).fetch.None?
  {
  }

  /** The camera is denied at start-up. The component falls back to the mock
      generator, whose first tick emits `happy`. The session signed in
      through the token form and storage accepted the write, so the request
      for `happy` is sent: an answer fills the player with the catalog's
      tracks, and a failure serves the canned happy tracks, with the player
      on the first of them, paused. */
  lemma DeniedCameraScenario(draws: seq<real>, loadSucceeds: bool, token: string, response: SpotifyService.Response)
    requires FacialDetection.ValidDraws(draws)
    requires token != ""
    ensures var d := FacialDetection.LoadModels(FacialDetection.InitialDetector, loadSucceeds);
      var started := FacialDetection.ApplyGate(d, true, FacialDetection.Denied);
      var tick := FacialDetection.MockTick(started.detector, 0, true, draws);
      var signedIn := SubmitToken(StartUp(None, false), token, false);
      var s := Session(StartDetection(signedIn.app), signedIn.service);
      var after := HandleInSession(s, tick.emitted.value, response);
      var player := MusicPlayer.OnTracksChanged(MusicPlayer.Player(0, false, 0.0));
      && started.follow == FacialDetection.MockDetection
      && FacialDetection.StatusBadge(started.detector.camera) == FacialDetection.Demo
      && tick.emitted.Some? && tick.emitted.value.dominant == Happy
      && TokenBacked(after) && SpotifyService.HasToken(after.service)
      && (response.Answered? ==> after.app.recommendations == SpotifyService.MapTracks(response.records))
      && (response.Failed? ==>
            && after.app.recommendations == SpotifyService.HappyTracks
            && View(after.app) == Dashboard(PlayerPanel(SpotifyService.HappyTracks, "happy"))
            && MusicPlayer.Render(after.app.recommendations, player)
               == MusicPlayer.NowPlaying(SpotifyService.HappyTracks[0], false, false))
  {
  }

  /** The same denied camera in demo mode: nothing is stored, the user
      continues without a token, and the first mock tick emits `happy`. No
      request is sent, so whatever the catalog would answer the player shows
      the canned happy tracks, on the first of them, paused. */
  lemma DemoModeScenario(draws: seq<real>, loadSucceeds: bool, response: SpotifyService.Response)
    requires FacialDetection.ValidDraws(draws)
    ensures var d := FacialDetection.LoadModels(FacialDetection.InitialDetector, loadSucceeds);
      var started := FacialDetection.ApplyGate(d, true, FacialDetection.Denied);
      var tick := FacialDetection.MockTick(started.detector, 0, true, draws);
      var demo := ContinueDemo(StartUp(None, false));
      var s := Session(StartDetection(demo.app), demo.service);
      var after := HandleInSession(s, tick.emitted.value, response);
      var player := MusicPlayer.OnTracksChanged(MusicPlayer.Player(0, false, 0.0));
      && tick.emitted.Some? && tick.emitted.value.dominant == Happy
      && after.app.authenticated && !TokenBacked(after)
      && after.app.recommendations == SpotifyService.HappyTracks
      && View(after.app) == Dashboard(PlayerPanel(SpotifyService.HappyTracks, "happy"))
      && MusicPlayer.Render(after.app.recommendations, player)
         == MusicPlayer.NowPlaying(SpotifyService.HappyTracks[0], false, false)
  {
  }
}

=== FILE: emotions.dfy ===
/** The mood table (genre seeds and target audio-feature ranges per emotion)
    and the aggregator that ranks the seven detector confidences. */
module Emotions {
  import opened Types

  // ---------------------------------------------------------------------
  // Mood table
  // ---------------------------------------------------------------------

  /** A closed interval of an audio feature. */
  datatype Range = Range(min: real, max: real)

  /** The part of a mood-table entry the pipeline uses: genre seeds and the
      valence and energy ranges. */
  datatype MoodConfig = MoodConfig(genres: seq<string>, valence: Range, energy: Range)

  predicate ValidRange(r: Range)
  {
    0.0 <= r.min <= r.max <= 1.0
  }

  predicate ValidConfig(c: MoodConfig)
  {
    |c.genres| > 0 && ValidRange(c.valence) && ValidRange(c.energy)
  }

  /** The centre of a range, the single target value sent to the catalog. */
  function Midpoint(r: Range): (m: real)
    ensures r.min <= r.max ==> r.min <= m <= r.max
    ensures m - r.min == r.max - m
  {
    (r.min + r.max) / 2.0
  }

  /** The own entry of the mood table for a label; the table has an entry
      for each of the seven known labels and for nothing else. */
  function ConfigEntry(l: Label): (c: Option<MoodConfig>)
    ensures c.Some? <==> !l.Unknown?
    ensures c.Some? ==> ValidConfig(c.value)
  {
    match l
    case Happy => Some(MoodConfig(["pop", "dance", "funk", "reggae"], Range(0.6, 1.0), Range(0.5, 1.0)))
    case Sad => Some(MoodConfig(["blues", "indie", "alternative", "acoustic"], Range(0.0, 0.4), Range(0.0, 0.5)))
    case Angry => Some(MoodConfig(["rock", "metal", "punk", "hardcore"], Range(0.0, 0.5), Range(0.7, 1.0)))
    case Surprised => Some(MoodConfig(["electronic", "experimental", "synthpop"], Range(0.4, 0.8), Range(0.6, 1.0)))
    case Fearful => Some(MoodConfig(["ambient", "chillout", "downtempo"], Range(0.0, 0.3), Range(0.0, 0.4)))
    case Disgusted => Some(MoodConfig(["grunge", "alternative", "indie-rock"], Range(0.0, 0.4), Range(0.4, 0.8)))
    case Neutral => Some(MoodConfig(["chill", "lofi", "jazz", "classical"], Range(0.3, 0.7), Range(0.2, 0.7)))
    case Unknown(_) => None
  }

  const NeutralConfig: MoodConfig := ConfigEntry(Neutral).value

  /** The mood-table entry for an emotion string, with the neutral entry as
      the default for every string that is not one of the seven labels. */
  function GetEmotionConfig(s: string): (c: MoodConfig)
    ensures ValidConfig(c)
    ensures KnownName(s) ==> ConfigEntry(Parse(s)) == Some(c)
    ensures !KnownName(s) ==> c == NeutralConfig
  {
    match ConfigEntry(Parse(s))
    case Some(c) => c
    case None => NeutralConfig
  }

  /** The lookup by name agrees with the table for each known label. */
  lemma GetEmotionConfigOfLabel(l: Label)
    requires !l.Unknown?
    ensures GetEmotionConfig(Name(l)) == ConfigEntry(l).value
  {
    ParseName(l);
  }

  // ---------------------------------------------------------------------
  // The lookup as written, on an object literal
  // ---------------------------------------------------------------------

  /** The property names that every ECMAScript object literal inherits from
      `Object.prototype`; reading one of them gives a function or an object,
      never `undefined`. */
  predicate InheritedName(s: string)
  {
    s in {"constructor", "hasOwnProperty", "isPrototypeOf", "propertyIsEnumerable",
          "toLocaleString", "toString", "valueOf", "__proto__",
          "__defineGetter__", "__defineSetter__", "__lookupGetter__", "__lookupSetter__"}
  }

  /** What reading `emotionConfig[s]` yields. */
  datatype PropertyRead = Own(config: MoodConfig) | Inherited(member: string) | Absent

  function ConfigProperty(s: string): (p: PropertyRead)
    ensures p.Own? <==> KnownName(s)
    ensures p.Inherited? <==> InheritedName(s)
  {
    if KnownName(s) then Own(ConfigEntry(Parse(s)).value)
    else if InheritedName(s) then Inherited(s)
    else Absent
  }

  /** `getEmotionConfig` as written: the `||` default replaces only a falsy
      read, so an inherited member is returned instead of the neutral entry. */
  function GetEmotionConfigAsWritten(s: string): (p: PropertyRead)
    ensures p.Own? <==> !InheritedName(s)
    ensures InheritedName(s) ==> p == Inherited(s)
    ensures p.Own? ==> p.config == GetEmotionConfig(s)
  {
    match ConfigProperty(s)
    case Absent => Own(NeutralConfig)
    case p => p
  }

  /** The discrepancy: for "toString" the written lookup does not give the
      neutral entry, while the intended lookup does. */
  lemma InheritedNameEscapesDefault()
    ensures GetEmotionConfigAsWritten("toString") == Inherited("toString")
    ensures GetEmotionConfig("toString") == NeutralConfig
  {
    assert !KnownName("toString");
  }

  // ---------------------------------------------------------------------
  // Aggregation
  // ---------------------------------------------------------------------

  /** The detector's per-category confidences for one face. */
  datatype Expressions = Expressions(
    happy: real, sad: real, angry: real, surprised: real,
    fearful: real, disgusted: real, neutral: real)

  /** The confidence the detector gave a known label. */
  function Score(x: Expressions, l: Label): real
  {
    match l
    case Happy => x.happy
    case Sad => x.sad
    case Angry => x.angry
    case Surprised => x.surprised
    case Fearful => x.fearful
    case Disgusted => x.disgusted
    case Neutral => x.neutral
    case Unknown(_) => 0.0
  }

  /** Position of a label in the fixed listing order. */
  function Rank(l: Label): (n: nat)
    ensures n < |Labels| ==> Labels[n] == l
  {
    match l
    case Happy => 0
    case Sad => 1
    case Angry => 2
    case Surprised => 3
    case Fearful => 4
    case Disgusted => 5
    case Neutral => 6
    case Unknown(_) => 7
  }

  /** The seven entries in the fixed listing order, before sorting. */
  function Entries(x: Expressions): (s: seq<EmotionScore>)
    ensures |s| == |Labels|
    ensures forall i :: 0 <= i < |s| ==> s[i] == EmotionScore(Labels[i], Score(x, Labels[i]))
  {
    [EmotionScore(Happy, x.happy), EmotionScore(Sad, x.sad), EmotionScore(Angry, x.angry),
     EmotionScore(Surprised, x.surprised), EmotionScore(Fearful, x.fearful),
     EmotionScore(Disgusted, x.disgusted), EmotionScore(Neutral, x.neutral)]
  }

  /** `a` precedes `b` in a stable descending sort of entries listed in rank
      order: higher confidence first, and on a tie the earlier label. */
  predicate Before(a: EmotionScore, b: EmotionScore)
  {
    a.confidence > b.confidence
    || (a.confidence == b.confidence && Rank(a.emotion) < Rank(b.emotion))
  }

  predicate NonIncreasing(s: seq<EmotionScore>)
  {
    forall i, j :: 0 <= i < j < |s| ==> s[i].confidence >= s[j].confidence
  }

  /** Strictly ordered by `Before`: sorted descending, ties in rank order. */
  predicate Ranked(s: seq<EmotionScore>)
  {
    forall i, j :: 0 <= i < j < |s| ==> Before(s[i], s[j])
  }

  predicate RankIncreasing(s: seq<EmotionScore>)
  {
    forall i, j :: 0 <= i < j < |s| ==> Rank(s[i].emotion) < Rank(s[j].emotion)
  }

  /** Inserts `x` in front of the first entry whose confidence does not
      exceed its own; `x` comes earlier in the input than every entry of `s`. */
  function Insert(x: EmotionScore, s: seq<EmotionScore>): (r: seq<EmotionScore>)
    ensures |r| == |s| + 1
    ensures multiset(r) == multiset(s) + multiset{x}
  {
    if |s| == 0 || s[0].confidence <= x.confidence then [x] + s
    else
      assert s == [s[0]] + s[1..];
      [s[0]] + Insert(x, s[1..])
  }

  /** Stable sort, descending by confidence (insertion sort). */
  function Sort(s: seq<EmotionScore>): (r: seq<EmotionScore>)
    ensures |r| == |s|
    ensures multiset(r) == multiset(s)
  {
    if |s| == 0 then []
    else
      assert s == [s[0]] + s[1..];
      Insert(s[0], Sort(s[1..]))
  }

  lemma InsertMembers(x: EmotionScore, s: seq<EmotionScore>, y: EmotionScore)
    ensures y in Insert(x, s) <==> y == x || y in s
  {
    assert y in Insert(x, s) <==> y in multiset(Insert(x, s));
  }

  lemma SortMembers(s: seq<EmotionScore>, y: EmotionScore)
    ensures y in Sort(s) <==> y in s
  {
    assert y in Sort(s) <==> y in multiset(Sort(s));
  }

  /** Inserting into a non-increasing sequence keeps it non-increasing. */
  lemma {:induction false} InsertNonIncreasing(x: EmotionScore, s: seq<EmotionScore>)
    requires NonIncreasing(s)
    ensures NonIncreasing(Insert(x, s))
    decreases |s|
  {
    if |s| > 0 && s[0].confidence > x.confidence {
      var t := Insert(x, s[1..]);
      assert NonIncreasing(s[1..]) by {
        forall i, j | 0 <= i < j < |s[1..]| ensures s[1..][i].confidence >= s[1..][j].confidence {
          assert s[1..][i] == s[i + 1] && s[1..][j] == s[j + 1];
        }
      }
      InsertNonIncreasing(x, s[1..]);
      forall y | y in t ensures s[0].confidence >= y.confidence {
        InsertMembers(x, s[1..], y);
      }
      var r := [s[0]] + t;
      forall i, j | 0 <= i < j < |r| ensures r[i].confidence >= r[j].confidence {
        if i == 0 {
          assert r[j] == t[j - 1];
          assert r[j] in t;
        } else {
          assert r[i] == t[i - 1] && r[j] == t[j - 1];
        }
      }
    }
  }

  /** Inserting an entry that comes earlier in rank than every entry of a
      ranked sequence keeps the sequence ranked: this is stability. */
  lemma {:induction false} InsertRanked(x: EmotionScore, s: seq<EmotionScore>)
    requires Ranked(s)
    requires forall y :: y in s ==> Rank(x.emotion) < Rank(y.emotion)
    ensures Ranked(Insert(x, s))
    decreases |s|
  {
    if |s| > 0 && s[0].confidence > x.confidence {
      var t := Insert(x, s[1..]);
      assert Ranked(s[1..]) by {
        forall i, j | 0 <= i < j < |s[1..]| ensures Before(s[1..][i], s[1..][j]) {
          assert s[1..][i] == s[i + 1] && s[1..][j] == s[j + 1];
        }
      }
      forall y | y in s[1..] ensures Rank(x.emotion) < Rank(y.emotion) {
        assert y in s;
      }
      InsertRanked(x, s[1..]);
      forall y | y in t ensures Before(s[0], y) {
        InsertMembers(x, s[1..], y);
        if y != x {
          var k :| 0 <= k < |s[1..]| && s[1..][k] == y;
          assert s[k + 1] == y;
        }
      }
      var r := [s[0]] + t;
      forall i, j | 0 <= i < j < |r| ensures Before(r[i], r[j]) {
        if i == 0 {
          assert r[j] == t[j - 1];
          assert r[j] in t;
        } else {
          assert r[i] == t[i - 1] && r[j] == t[j - 1];
        }
      }
    } else if |s| > 0 {
      var r := [x] + s;
      forall i, j | 0 <= i < j < |r| ensures Before(r[i], r[j]) {
        if i == 0 {
          assert r[j] == s[j - 1];
          assert r[j] in s;
          if j > 1 {
            assert Before(s[0], s[j - 1]);
          }
        } else {
          assert r[i] == s[i - 1] && r[j] == s[j - 1];
        }
      }
    }
  }

  lemma {:induction false} SortNonIncreasing(s: seq<EmotionScore>)
    ensures NonIncreasing(Sort(s))
    decreases |s|
  {
    if |s| > 0 {
      SortNonIncreasing(s[1..]);
      InsertNonIncreasing(s[0], Sort(s[1..]));
    }
  }

  /** Sorting entries listed in rank order gives a ranked sequence. */
  lemma {:induction false} SortRanked(s: seq<EmotionScore>)
    requires RankIncreasing(s)
    ensures Ranked(Sort(s))
    decreases |s|
  {
    if |s| > 0 {
      assert RankIncreasing(s[1..]) by {
        forall i, j | 0 <= i < j < |s[1..]| ensures Rank(s[1..][i].emotion) < Rank(s[1..][j].emotion) {
          assert s[1..][i] == s[i + 1] && s[1..][j] == s[j + 1];
        }
      }
      SortRanked(s[1..]);
      forall y | y in Sort(s[1..]) ensures Rank(s[0].emotion) < Rank(y.emotion) {
        SortMembers(s[1..], y);
        var k :| 0 <= k < |s[1..]| && s[1..][k] == y;
        assert s[k + 1] == y;
      }
      InsertRanked(s[0], Sort(s[1..]));
    }
  }

  /** Ranks the seven confidences of one face and picks the dominant label. */
  function MapFaceApiEmotion(x: Expressions): (d: DetectedEmotion)
    ensures |d.all| == |Labels|
    ensures forall i :: 0 <= i < |Labels| ==> EmotionScore(Labels[i], Score(x, Labels[i])) in d.all
    ensures Ranked(d.all)
    ensures d.dominant == d.all[0].emotion && d.confidence == d.all[0].confidence
    ensures forall i :: 0 <= i < |Labels| ==> d.confidence >= Score(x, Labels[i])
  {
    var all := Sort(Entries(x));
    RankedSortOfEntries(x);
    PermutationMembers(x, all);
    DetectedEmotion(all[0].emotion, all[0].confidence, all)
  }

  /** Seven entries holding all seven labels: the ranking rearranges the entries. */
  lemma MapFaceApiEmotionPermutation(x: Expressions)
    ensures multiset(MapFaceApiEmotion(x).all) == multiset(Entries(x))
  {
    assert MapFaceApiEmotion(x).all == Sort(Entries(x));
  }

  /** A rearrangement of the entries holds each label with its own
      confidence, and nothing else. */
  lemma PermutationMembers(x: Expressions, all: seq<EmotionScore>)
    requires multiset(all) == multiset(Entries(x))
    ensures forall i :: 0 <= i < |Labels| ==> EmotionScore(Labels[i], Score(x, Labels[i])) in all
    ensures forall e :: e in all ==> e.emotion in Labels && e.confidence == Score(x, e.emotion)
  {
    var entries := Entries(x);
    forall e | e in all ensures e.emotion in Labels && e.confidence == Score(x, e.emotion) {
      assert e in multiset(entries);
      EntriesMembers(x, e);
    }
    forall i | 0 <= i < |Labels| ensures EmotionScore(Labels[i], Score(x, Labels[i])) in all {
      assert entries[i] in multiset(all);
    }
  }

  /** A ranked rearrangement of the entries names each label once. */
  lemma RankingDistinct(x: Expressions, all: seq<EmotionScore>)
    requires multiset(all) == multiset(Entries(x))
    requires Ranked(all)
    ensures forall i, j :: 0 <= i < j < |all| ==> all[i].emotion != all[j].emotion
  {
    PermutationMembers(x, all);
    forall i, j | 0 <= i < j < |all| ensures all[i].emotion != all[j].emotion {
      assert Before(all[i], all[j]);
      assert all[i] in all && all[j] in all;
    }
  }

  /** A ranked sequence is non-increasing in confidence. */
  lemma RankedNonIncreasing(s: seq<EmotionScore>)
    requires Ranked(s)
    ensures NonIncreasing(s)
  {
    forall i, j | 0 <= i < j < |s| ensures s[i].confidence >= s[j].confidence {
      assert Before(s[i], s[j]);
    }
  }

  /** The head of a ranked sequence is at least as confident as every entry. */
  lemma RankedHeadMax(s: seq<EmotionScore>)
    requires Ranked(s) && |s| > 0
    ensures forall e :: e in s ==> s[0].confidence >= e.confidence
  {
    forall e | e in s ensures s[0].confidence >= e.confidence {
      var k :| 0 <= k < |s| && s[k] == e;
      if k > 0 {
        assert Before(s[0], s[k]);
      }
    }
  }

  /** In a ranked sequence, entries of equal confidence appear in rank order. */
  lemma RankedTies(s: seq<EmotionScore>)
    requires Ranked(s)
    ensures forall i, j :: 0 <= i < j < |s| && s[i].confidence == s[j].confidence
              ==> Rank(s[i].emotion) < Rank(s[j].emotion)
  {
    forall i, j | 0 <= i < j < |s| && s[i].confidence == s[j].confidence
      ensures Rank(s[i].emotion) < Rank(s[j].emotion)
    {
      assert Before(s[i], s[j]);
    }
  }

  /** Stability: entries of equal confidence keep the fixed listing order. */
  lemma MapFaceApiEmotionTies(x: Expressions)
    ensures var all := MapFaceApiEmotion(x).all;
      forall i, j :: 0 <= i < j < |all| && all[i].confidence == all[j].confidence
        ==> Rank(all[i].emotion) < Rank(all[j].emotion)
  {
    RankedTies(MapFaceApiEmotion(x).all);
  }

  lemma EntriesRankIncreasing(x: Expressions)
    ensures RankIncreasing(Entries(x))
  {
    var s := Entries(x);
    forall i, j | 0 <= i < j < |s| ensures Rank(s[i].emotion) < Rank(s[j].emotion) {
      assert s[i].emotion == Labels[i] && s[j].emotion == Labels[j];
    }
  }

  lemma EntriesMembers(x: Expressions, e: EmotionScore)
    requires e in Entries(x)
    ensures e.emotion in Labels && e.confidence == Score(x, e.emotion)
  {
    var s := Entries(x);
    var i :| 0 <= i < |s| && s[i] == e;
    assert e == EmotionScore(Labels[i], Score(x, Labels[i]));
  }

  lemma RankedSortOfEntries(x: Expressions)
    ensures Ranked(Sort(Entries(x)))
    ensures forall i :: 0 <= i < |Labels| ==> Sort(Entries(x))[0].confidence >= Score(x, Labels[i])
  {
    var all := Sort(Entries(x));
    EntriesRankIncreasing(x);
    SortRanked(Entries(x));
    PermutationMembers(x, all);
    RankedHeadMax(all);
  }

  /** Two ranked arrangements of the same entries start with the same entry. */
  lemma RankedHead(a: seq<EmotionScore>, b: seq<EmotionScore>)
    requires multiset(a) == multiset(b)
    requires Ranked(a) && Ranked(b)
    requires |a| > 0
    ensures |b| > 0 && a[0] == b[0]
  {
    assert a[0] in multiset(b);
    var m :| 0 <= m < |b| && b[m] == a[0];
    assert b[0] in multiset(a);
    var k :| 0 <= k < |a| && a[k] == b[0];
    if m != 0 && k != 0 {
      assert false;
    }
  }

  /** Dropping the head of a ranked sequence leaves it ranked. */
  lemma RankedTail(s: seq<EmotionScore>)
    requires Ranked(s) && |s| > 0
    ensures Ranked(s[1..])
  {
    forall i, j | 0 <= i < j < |s[1..]| ensures Before(s[1..][i], s[1..][j]) {
      assert s[1..][i] == s[i + 1] && s[1..][j] == s[j + 1];
    }
  }

  /** Two ranked arrangements of the same entries are equal. */
  lemma {:induction false} RankedPermutationUnique(a: seq<EmotionScore>, b: seq<EmotionScore>)
    requires multiset(a) == multiset(b)
    requires Ranked(a) && Ranked(b)
    ensures a == b
    decreases |a|
  {
    assert |a| == |multiset(a)| == |multiset(b)| == |b|;
    if |a| > 0 {
      assert a == [a[0]] + a[1..];
      assert b == [b[0]] + b[1..];
      RankedHead(a, b);
      assert multiset(a[1..]) == multiset(a) - multiset{a[0]};
      assert multiset(b[1..]) == multiset(b) - multiset{b[0]};
      RankedTail(a);
      RankedTail(b);
      RankedPermutationUnique(a[1..], b[1..]);
    }
  }

  /** Determinism: any stable descending sort of the seven entries yields
      exactly the ranking of `MapFaceApiEmotion`. */
  lemma MapFaceApiEmotionUnique(x: Expressions, all: seq<EmotionScore>)
    requires multiset(all) == multiset(Entries(x))
    requires Ranked(all)
    ensures all == MapFaceApiEmotion(x).all
  {
    MapFaceApiEmotionPermutation(x);
    RankedPermutationUnique(all, MapFaceApiEmotion(x).all);
  }
}

=== FILE: facial_detection.dfy ===
/** The detection component: the models-loaded gate, the camera state
    transitions, one tick of the live detection loop and one tick of the mock
    generator. The detector, the camera and `Math.random` are inputs. */
module FacialDetection {
  import opened Types
  import opened Emotions

  /** The component's state: the camera record, whether model loading has
      finished, and the last emotion it showed. */
  datatype Detector = Detector(camera: CameraState, modelsLoaded: bool, current: Option<DetectedEmotion>)

  const InitialDetector: Detector := Detector(CameraState(false, false, None), false, None)

  const CameraDeniedMessage: string := "Camera access denied. Please enable camera permissions."

  /** The error text is shown, in place of the video and canvas, when it is truthy. */
  predicate ShowsError(c: CameraState)
  {
    c.error.Some? && c.error.value != ""
  }

  /** The video and canvas elements are mounted exactly when no error is shown. */
  predicate VideoMounted(d: Detector)
  {
    !ShowsError(d.camera)
  }

  // ---------------------------------------------------------------------
  // Model loading and the camera gate
  // ---------------------------------------------------------------------

  /** Loading the detector models ends with the flag set, whether the load
      succeeded or failed (a failure only degrades detection later). */
  function LoadModels(d: Detector, loadSucceeds: bool): (e: Detector)
    ensures e.modelsLoaded
    ensures e.camera == d.camera && e.current == d.current
  {
    if loadSucceeds then d.(modelsLoaded := true)
    else d.(modelsLoaded := true)
  }

  datatype CameraCommand = Start | Stop

  /** The effect on `isActive` and `modelsLoaded`. */
  function CameraEffect(isActive: bool, modelsLoaded: bool): (c: CameraCommand)
    ensures c == Start <==> isActive && modelsLoaded
  {
    if isActive && modelsLoaded then Start else Stop
  }

  /** Once loading has finished, the gate depends on `isActive` alone, and
      not on whether the models actually loaded. */
  lemma GateIgnoresLoadOutcome(d: Detector, isActive: bool, loadSucceeds: bool)
    ensures CameraEffect(isActive, LoadModels(d, loadSucceeds).modelsLoaded) == Start <==> isActive
    ensures CameraEffect(isActive, LoadModels(d, loadSucceeds).modelsLoaded)
         == CameraEffect(isActive, LoadModels(d, !loadSucceeds).modelsLoaded)
  {
  }

  /** Before loading has finished the camera is never started. */
  lemma NoStartBeforeLoad(isActive: bool)
    ensures CameraEffect(isActive, InitialDetector.modelsLoaded) == Stop
  {
  }

  // ---------------------------------------------------------------------
  // Camera start and stop
  // ---------------------------------------------------------------------

  /** The camera's answer to the request for a stream. */
  datatype CameraOutcome = Granted | Denied

  /** What runs after a start attempt. */
  datatype FollowUp = Nothing | LiveDetection | MockDetection

  datatype StartResult = StartResult(detector: Detector, follow: FollowUp)

  /** Granted with the video mounted: live, with permission, no error, and
      live detection begins once the stream's metadata arrives. Granted
      without a video element: nothing changes. Denied: inactive, no
      permission, the denial message, and mock detection begins. */
  function StartCamera(d: Detector, outcome: CameraOutcome): (r: StartResult)
    ensures outcome == Granted && VideoMounted(d) ==>
      r.detector.camera == CameraState(true, true, None) && r.follow == LiveDetection
    ensures outcome == Granted && !VideoMounted(d) ==> r == StartResult(d, Nothing)
    ensures outcome == Denied ==>
      r.detector.camera == CameraState(false, false, Some(CameraDeniedMessage)) && r.follow == MockDetection
    ensures r.detector.modelsLoaded == d.modelsLoaded && r.detector.current == d.current
  {
    match outcome
    case Granted =>
      if VideoMounted(d) then StartResult(d.(camera := CameraState(true, true, None)), LiveDetection)
      else StartResult(d, Nothing)
    case Denied =>
      StartResult(d.(camera := CameraState(false, false, Some(CameraDeniedMessage))), MockDetection)
  }

  /** Stopping clears `isActive` only; permission and error are kept. */
  function StopCamera(d: Detector): (e: Detector)
    ensures !e.camera.isActive
    ensures e.camera.hasPermission == d.camera.hasPermission && e.camera.error == d.camera.error
    ensures e.modelsLoaded == d.modelsLoaded && e.current == d.current
  {
    d.(camera := d.camera.(isActive := false))
  }

  /** The gate effect followed by the camera call it selects. */
  function ApplyGate(d: Detector, isActive: bool, outcome: CameraOutcome): (r: StartResult)
    ensures !(isActive && d.modelsLoaded) ==> r == StartResult(StopCamera(d), Nothing)
    ensures isActive && d.modelsLoaded ==> r == StartCamera(d, outcome)
  {
    match CameraEffect(isActive, d.modelsLoaded)
    case Start => StartCamera(d, outcome)
    case Stop => StartResult(StopCamera(d), Nothing)
  }

  /** The camera is live after the gate exactly when detection is active,
      the models have finished loading, the stream is granted and the video
      element is mounted. */
  lemma LiveIffGateOpenAndGranted(d: Detector, isActive: bool, outcome: CameraOutcome)
    requires !d.camera.isActive
    ensures ApplyGate(d, isActive, outcome).detector.camera.isActive
        <==> isActive && d.modelsLoaded && outcome == Granted && VideoMounted(d)
  {
  }

  /** After a denial the video element is gone, so a later grant in the same
      component cannot make the camera live. */
  lemma DenialIsSticky(d: Detector)
    ensures var denied := StartCamera(d, Denied).detector;
      !StartCamera(denied, Granted).detector.camera.isActive
      && StartCamera(denied, Granted).follow == Nothing
  {
  }

  /** The status badge. */
  datatype Badge = Live | Demo | Off

  function StatusBadge(c: CameraState): (b: Badge)
    ensures b == Live <==> c.isActive
    ensures b == Demo <==> !c.isActive && ShowsError(c)
  {
    if c.isActive then Live else if ShowsError(c) then Demo else Off
  }

  /** A denial shows the denial message and the demo badge. */
  lemma DeniedShowsDemo(d: Detector)
    ensures var c := StartCamera(d, Denied).detector.camera;
      StatusBadge(c) == Demo && ShowsError(c)
  {
  }

  // ---------------------------------------------------------------------
  // Live detection tick
  // ---------------------------------------------------------------------

  /** The detector's answer for one frame: the faces found, or a failure. */
  datatype FaceResult = Faces(found: seq<Expressions>) | DetectorFailed

  /** What one tick did: the new state, the emission (if any), whether mock
      detection was started, and whether the next tick was scheduled. */
  datatype TickOutcome = TickOutcome(detector: Detector, emitted: Option<DetectedEmotion>, startMock: bool, reschedule: bool)

  /** One tick of the live loop. Without the video and canvas, or when
      inactive, it returns at once and the loop ends. Otherwise it emits the
      ranking of the first face when at least one face is found, starts mock
      detection when the detector fails, and schedules the next tick in every case. */
  function LiveTick(d: Detector, isActive: bool, result: FaceResult): (o: TickOutcome)
    ensures !(VideoMounted(d) && isActive) ==> o == TickOutcome(d, None, false, false)
    ensures VideoMounted(d) && isActive ==> o.reschedule
    ensures o.emitted.Some? <==> VideoMounted(d) && isActive && result.Faces? && |result.found| > 0
    ensures o.emitted.Some? ==> o.emitted.value == MapFaceApiEmotion(result.found[0]) && o.detector.current == o.emitted
    ensures o.emitted.None? ==> o.detector == d
    ensures o.startMock <==> VideoMounted(d) && isActive && result.DetectorFailed?
  {
    if !(VideoMounted(d) && isActive) then TickOutcome(d, None, false, false)
    else
      match result
      case Faces(found) =>
        if |found| > 0 then
          var e := MapFaceApiEmotion(found[0]);
          TickOutcome(d.(current := Some(e)), Some(e), false, true)
        else TickOutcome(d, None, false, true)
      case DetectorFailed => TickOutcome(d, None, true, true)
  }

  /** A live emission names the most confident of the seven categories. */
  lemma LiveEmissionIsDominant(d: Detector, isActive: bool, result: FaceResult)
    requires VideoMounted(d) && isActive
    requires result.Faces? && |result.found| > 0
    ensures LiveTick(d, isActive, result).emitted.Some?
    ensures var e := LiveTick(d, isActive, result).emitted.value;
      forall i :: 0 <= i < |Labels| ==> Score(result.found[0], e.dominant) >= Score(result.found[0], Labels[i])
  {
    var x := result.found[0];
    var e := MapFaceApiEmotion(x);
    PermutationMembers(x, e.all);
    assert e.all[0] in e.all;
  }

  // ---------------------------------------------------------------------
  // Mock generator
  // ---------------------------------------------------------------------

  /** The labels the mock generator walks through, in order. */
  const MockCycle: seq<Label> := [Happy, Sad, Neutral, Surprised]

  /** The five `Math.random()` draws of one mock tick, in evaluation order:
      the top-level confidence first, then one per entry. */
  predicate ValidDraws(draws: seq<real>)
  {
    |draws| == 5 && forall i :: 0 <= i < |draws| ==> 0.0 <= draws[i] < 1.0
  }

  /** The mock result for cycle position `index`: the active label scores in
      [0.7, 1.0), every other label in [0, 0.3), and the top-level confidence
      is a separate draw in [0.7, 1.0). */
  function MockEmotion(index: nat, draws: seq<real>): (e: DetectedEmotion)
    requires index < |MockCycle| && ValidDraws(draws)
    ensures e.dominant == MockCycle[index]
    ensures 0.7 <= e.confidence < 1.0
    ensures |e.all| == |MockCycle|
    ensures forall k :: 0 <= k < |e.all| ==> e.all[k].emotion == MockCycle[k]
    ensures 0.7 <= e.all[index].confidence < 1.0
    ensures forall k :: 0 <= k < |e.all| && k != index ==> 0.0 <= e.all[k].confidence < 0.3
    ensures forall k :: 0 <= k < |e.all| && k != index ==> e.all[k].confidence < e.all[index].confidence
  {
    DetectedEmotion(
      MockCycle[index],
      0.7 + draws[0] * 0.3,
      [MockScore(0, index, draws), MockScore(1, index, draws), MockScore(2, index, draws), MockScore(3, index, draws)])
  }

  /** Entry `k` of the mock list: the active label draws from [0.7, 1.0), the others from [0, 0.3). */
  function MockScore(k: nat, index: nat, draws: seq<real>): EmotionScore
    requires k < |MockCycle| && |draws| == 5
  {
    EmotionScore(MockCycle[k], if k == index then 0.7 + draws[k + 1] * 0.3 else draws[k + 1] * 0.3)
  }

  /** The top-level confidence need not equal the active entry's confidence. */
  lemma MockConfidenceIsSeparateDraw()
    ensures var e := MockEmotion(0, [0.0, 0.5, 0.0, 0.0, 0.0]);
      e.confidence != e.all[0].confidence
  {
  }

  datatype MockTickOutcome = MockTickOutcome(detector: Detector, emitted: Option<DetectedEmotion>, nextIndex: Option<nat>)

  /** The cycle position after `index`, wrapping after the fourth. */
  function NextPosition(index: nat): nat
  {
    if index + 1 < |MockCycle| then index + 1 else 0
  }

  /** One tick of the mock loop. When inactive it emits nothing and the loop
      ends; otherwise it emits the mock result for the current position and
      advances the position, wrapping after the fourth label. */
  function MockTick(d: Detector, index: nat, isActive: bool, draws: seq<real>): (o: MockTickOutcome)
    requires index < |MockCycle| && ValidDraws(draws)
    ensures !isActive ==> o == MockTickOutcome(d, None, None)
    ensures isActive ==> o.emitted == Some(MockEmotion(index, draws)) && o.detector.current == o.emitted
    ensures isActive ==> o.nextIndex == Some(NextPosition(index))
  {
    if !isActive then MockTickOutcome(d, None, None)
    else
      var e := MockEmotion(index, draws);
      MockTickOutcome(d.(current := Some(e)), Some(e), Some((index + 1) % |MockCycle|))
  }

  /** The dominant labels emitted by consecutive active mock ticks. */
  function MockRun(d: Detector, index: nat, ticks: seq<seq<real>>): (labels: seq<Label>)
    requires index < |MockCycle|
    requires forall t :: t in ticks ==> ValidDraws(t)
    ensures |labels| == |ticks|
    decreases |ticks|
  {
    if |ticks| == 0 then []
    else
      var o := MockTick(d, index, true, ticks[0]);
      [o.emitted.value.dominant] + MockRun(o.detector, o.nextIndex.value, ticks[1..])
  }

  /** The first active tick emits the label at `index`; the rest of the run
      starts from the advanced position. */
  lemma MockRunStep(d: Detector, index: nat, ticks: seq<seq<real>>)
    requires index < |MockCycle| && |ticks| > 0
    requires forall t :: t in ticks ==> ValidDraws(t)
    ensures forall t :: t in ticks[1..] ==> ValidDraws(t)
    ensures MockRun(d, index, ticks)
      == [MockCycle[index]] + MockRun(MockTick(d, index, true, ticks[0]).detector, NextPosition(index), ticks[1..])
  {
    forall t | t in ticks[1..] ensures ValidDraws(t) {
      assert t in ticks;
    }
  }

  /** The mock labels follow happy, sad, neutral, surprised and wrap around. */
  lemma {:induction false} MockRunCycles(d: Detector, index: nat, ticks: seq<seq<real>>)
    requires index < |MockCycle|
    requires forall t :: t in ticks ==> ValidDraws(t)
    ensures forall k :: 0 <= k < |ticks| ==> MockRun(d, index, ticks)[k] == MockCycle[(index + k) % |MockCycle|]
    decreases |ticks|
  {
    if |ticks| > 0 {
      MockRunStep(d, index, ticks);
      var next := MockTick(d, index, true, ticks[0]).detector;
      var tail := MockRun(next, NextPosition(index), ticks[1..]);
      MockRunCycles(next, NextPosition(index), ticks[1..]);
      CycleCons(index, tail);
      assert MockRun(d, index, ticks) == [MockCycle[index]] + tail;
    }
  }

  /** Prefixing the label at `index` to a cycle walk from the next position
      gives a cycle walk from `index`. */
  lemma CycleCons(index: nat, tail: seq<Label>)
    requires index < |MockCycle|
    requires forall k :: 0 <= k < |tail| ==> tail[k] == MockCycle[(NextPosition(index) + k) % |MockCycle|]
    ensures var run := [MockCycle[index]] + tail;
      forall k :: 0 <= k < |run| ==> run[k] == MockCycle[(index + k) % |MockCycle|]
  {
    var run := [MockCycle[index]] + tail;
    forall k | 0 <= k < |run| ensures run[k] == MockCycle[(index + k) % |MockCycle|] {
      if k > 0 {
        assert run[k] == tail[k - 1];
        CycleShift(index, k);
      }
    }
  }

  /** Starting one position later and one tick earlier lands on the same position. */
  lemma CycleShift(index: nat, k: nat)
    requires index < |MockCycle| && k > 0
    ensures (NextPosition(index) + (k - 1)) % |MockCycle| == (index + k) % |MockCycle|
  {
  }

  /** The active label of every mock result is strictly the highest entry. */
  lemma MockActiveIsStrictMax(index: nat, draws: seq<real>)
    requires index < |MockCycle| && ValidDraws(draws)
    ensures var e := MockEmotion(index, draws);
      forall s :: s in e.all && s.emotion != e.dominant ==> s.confidence < e.all[index].confidence
  {
    var e := MockEmotion(index, draws);
    forall s | s in e.all && s.emotion != e.dominant ensures s.confidence < e.all[index].confidence {
      var k :| 0 <= k < |e.all| && e.all[k] == s;
      assert k != index;
    }
  }
}

=== FILE: music_player.dfy ===
/** The playback transport: which track of the list is selected, whether it
    plays, and how far it has played (a percentage). The audio element is
    outside the model; whether it exists and whether `play()` succeeds are inputs. */
module MusicPlayer {
  import opened Types

  datatype Player = Player(index: nat, isPlaying: bool, progress: real)

  /** The remainder of ECMAScript's `%`, which truncates toward zero, so the
      result is smaller than `n` in magnitude and takes the sign of `a`. The
      player passes only non-negative operands, where it agrees with Dafny's
      Euclidean `%`. */
  function Rem(a: int, n: int): (r: int)
    requires n > 0
    ensures a >= 0 ==> r == a % n
    ensures -n < r < n
    ensures a >= 0 ==> r >= 0
    ensures a <= 0 ==> r <= 0
  {
    if a >= 0 then a % n else -((-a) % n)
  }

  /** The state for a newly received track list, whatever the state before. */
  function OnTracksChanged(p: Player): (q: Player)
    ensures q.index == 0 && !q.isPlaying && q.progress == 0.0
  {
    Player(0, false, 0.0)
  }

  /** Selected index within a list of `len` tracks. */
  predicate InRange(p: Player, len: nat)
  {
    p.index < len
  }

  /** Skips forward, wrapping after the last track; playback stops, progress is kept. */
  function NextTrack(p: Player, len: nat): (q: Player)
    requires len > 0
    ensures InRange(q, len)
    ensures q.index == (p.index + 1) % len
    ensures !q.isPlaying && q.progress == p.progress
  {
    Player(Rem(p.index + 1, len), false, p.progress)
  }

  /** Skips back, wrapping before the first track; playback stops, progress is kept. */
  function PrevTrack(p: Player, len: nat): (q: Player)
    requires len > 0
    ensures InRange(q, len)
    ensures InRange(p, len) ==> (q.index + 1) % len == p.index
    ensures InRange(p, len) ==> q.index == if p.index == 0 then len - 1 else p.index - 1
    ensures !q.isPlaying && q.progress == p.progress
  {
    PrevIndex(p.index, len);
    Player(Rem(p.index - 1 + len, len), false, p.progress)
  }

  /** The index arithmetic of the back button. */
  lemma PrevIndex(i: nat, len: nat)
    requires len > 0
    ensures 0 <= Rem(i - 1 + len, len) < len
    ensures i < len ==> Rem(i - 1 + len, len) == if i == 0 then len - 1 else i - 1
    ensures i < len ==> (Rem(i - 1 + len, len) + 1) % len == i
  {
    var m := i - 1 + len;
    assert Rem(m, len) == m % len;
    if i < len {
      PredMod(i, len);
    }
  }

  /** One step back and one step forward, in Dafny's `%`. */
  lemma PredMod(i: nat, len: nat)
    requires i < len
    ensures (i - 1 + len) % len == if i == 0 then len - 1 else i - 1
    ensures ((i - 1 + len) % len + 1) % len == i
  {
    if i == 0 {
      assert (len - 1) % len == len - 1;
      assert len % len == 0;
    } else {
      assert (i - 1 + len) % len == i - 1 by {
        assert i - 1 + len == 1 * len + (i - 1);
      }
      assert i % len == i;
    }
  }

  /** A click on item `k` of the list: only the index changes. */
  function SelectTrack(p: Player, k: nat, len: nat): (q: Player)
    requires k < len
    ensures InRange(q, len) && q.index == k
    ensures q.isPlaying == p.isPlaying && q.progress == p.progress
  {
    p.(index := k)
  }

  /** The audio element exists only when the selected track has a non-empty preview link. */
  predicate Playable(t: Track)
  {
    t.previewUrl.Some? && t.previewUrl.value != ""
  }

  predicate HasAudio(tracks: seq<Track>, p: Player)
  {
    p.index < |tracks| && Playable(tracks[p.index])
  }

  /** The play/pause button: pauses a playing track; starts a paused one when
      `play()` succeeds and stays paused when it is refused; does nothing
      without an audio element. */
  function TogglePlayPause(p: Player, hasAudio: bool, playSucceeds: bool): (q: Player)
    ensures !hasAudio ==> q == p
    ensures hasAudio && p.isPlaying ==> !q.isPlaying
    ensures hasAudio && !p.isPlaying ==> (q.isPlaying <==> playSucceeds)
    ensures q.index == p.index && q.progress == p.progress
  {
    if !hasAudio then p
    else if p.isPlaying then p.(isPlaying := false)
    else p.(isPlaying := playSucceeds)
  }

  /** The `ended` event of the audio element. */
  function OnEnded(p: Player, len: nat): (q: Player)
    requires len > 0
    ensures q == NextTrack(p, len)
  {
    NextTrack(p, len)
  }

  /** What the player shows. */
  datatype View = NoTracks | NowPlaying(track: Track, playable: bool, playing: bool)

  function Render(tracks: seq<Track>, p: Player): (v: View)
    ensures v.NoTracks? <==> !InRange(p, |tracks|)
    ensures v.NowPlaying? ==> v.track == tracks[p.index] && (v.playable <==> HasAudio(tracks, p))
  {
    if p.index < |tracks| then NowPlaying(tracks[p.index], Playable(tracks[p.index]), p.isPlaying)
    else NoTracks
  }

  /** An empty list shows the "No tracks available" panel. */
  lemma EmptyListShowsNoTracks(p: Player)
    ensures Render([], p) == NoTracks
  {
  }

  /** A new non-empty list shows its first track, paused. */
  lemma NewListShowsFirstTrack(p: Player, tracks: seq<Track>)
    requires |tracks| > 0
    ensures Render(tracks, OnTracksChanged(p)) == NowPlaying(tracks[0], Playable(tracks[0]), false)
  {
  }

  /** Every transport operation keeps the selection inside the list. */
  lemma TransportKeepsRange(p: Player, len: nat, k: nat, hasAudio: bool, ok: bool)
    requires len > 0 && InRange(p, len) && k < len
    ensures InRange(OnTracksChanged(p), len)
    ensures InRange(NextTrack(p, len), len) && InRange(PrevTrack(p, len), len)
    ensures InRange(SelectTrack(p, k, len), len) && InRange(OnEnded(p, len), len)
    ensures InRange(TogglePlayPause(p, hasAudio, ok), len)
  {
  }

  /** Back after forward, and forward after back, restore the selection. */
  lemma PrevNextInverse(p: Player, len: nat)
    requires len > 0 && InRange(p, len)
    ensures PrevTrack(NextTrack(p, len), len).index == p.index
    ensures NextTrack(PrevTrack(p, len), len).index == p.index
  {
    WrapSucc(p.index, len);
  }

  /** `n` presses of the forward button. */
  function NextTimes(p: Player, len: nat, n: nat): (q: Player)
    requires len > 0
    ensures n > 0 ==> !q.isPlaying
    ensures q.progress == p.progress
  {
    if n == 0 then p else NextTrack(NextTimes(p, len, n - 1), len)
  }

  /** After `n <= len` presses the selection has moved `n` places forward, wrapping once. */
  lemma {:induction false} NextTimesIndex(p: Player, len: nat, n: nat)
    requires len > 0 && InRange(p, len) && n <= len
    ensures NextTimes(p, len, n).index == if p.index + n < len then p.index + n else p.index + n - len
    decreases n
  {
    if n > 0 {
      NextTimesIndex(p, len, n - 1);
      var prev := NextTimes(p, len, n - 1);
      assert NextTimes(p, len, n) == NextTrack(prev, len);
      WrapSucc(prev.index, len);
    }
  }

  /** One step forward from a valid index, without the remainder. */
  lemma WrapSucc(x: nat, len: nat)
    requires x < len
    ensures (x + 1) % len == if x + 1 < len then x + 1 else 0
  {
  }

  /** `len` presses of the forward button come back to the starting track. */
  lemma FullCycleReturns(p: Player, len: nat)
    requires len > 0 && InRange(p, len)
    ensures NextTimes(p, len, len).index == p.index
  {
    NextTimesIndex(p, len, len);
  }

  /** The `ended` event advances exactly one track: not zero, and not two. */
  lemma EndedAdvancesOnce(p: Player, len: nat)
    requires len > 0 && InRange(p, len)
    ensures OnEnded(p, len).index == NextTimes(p, len, 1).index
    ensures len >= 2 ==> OnEnded(p, len).index != p.index
    ensures len >= 3 ==> OnEnded(p, len).index != NextTimes(p, len, 2).index
  {
    if len >= 3 {
      NextTimesIndex(p, len, 2);
    }
  }
}

=== FILE: spotify_service.dfy ===
/** The catalog client: the access-token state, the recommendation policy
    with its fallback to canned tracks, the genre search, and the mapping of
    catalog records to tracks. The HTTP exchange is an input: the answer the
    catalog would give to the query, if the query is sent. */
module SpotifyService {
  import opened Types
  import opened Emotions

  // ---------------------------------------------------------------------
  // Token state
  // ---------------------------------------------------------------------

  /** The in-memory token and the token kept in browser storage. */
  datatype Service = Service(accessToken: Option<string>, stored: Option<string>)

  /** A fresh service object (a page load) over whatever storage holds. */
  function Load(stored: Option<string>): Service
  {
    Service(None, stored)
  }

  /** Whether the in-memory token is truthy; the empty string is not. */
  predicate HasToken(s: Service)
  {
    s.accessToken.Some? && s.accessToken.value != ""
  }

  datatype AuthResult = AuthResult(service: Service, authenticated: bool)

  /** Adopts the stored token when there is a non-empty one. `storageFails`
      stands for the storage read throwing, which also answers false. */
  function Authenticate(s: Service, storageFails: bool): (r: AuthResult)
    ensures r.authenticated <==> !storageFails && s.stored.Some? && s.stored.value != ""
    ensures r.authenticated ==> r.service.accessToken == s.stored && HasToken(r.service)
    ensures !r.authenticated ==> r.service == s
    ensures r.service.stored == s.stored
  {
    if storageFails then AuthResult(s, false)
    else if s.stored.Some? && s.stored.value != "" then AuthResult(s.(accessToken := s.stored), true)
    else AuthResult(s, false)
  }

  /** Sets the in-memory token, then writes it to storage. The write is not
      guarded: when storage refuses it (`writeFails`) the call throws after the
      in-memory token is already set, and storage keeps its old value. */
  function SetAccessToken(s: Service, token: string, writeFails: bool): (r: Service)
    ensures r.accessToken == Some(token)
    ensures r.stored == if writeFails then s.stored else Some(token)
  {
    if writeFails then Service(Some(token), s.stored) else Service(Some(token), Some(token))
  }

  /** A token whose write succeeded is adopted by `Authenticate` after a
      reload, exactly when it is non-empty. After a refused write the reload
      sees storage as it was before the call. */
  lemma TokenSurvivesReload(s: Service, token: string, writeFails: bool)
    ensures !writeFails ==>
      var r := Authenticate(Load(SetAccessToken(s, token, false).stored), false);
      (r.authenticated <==> token != "")
      && (r.authenticated ==> r.service.accessToken == Some(token))
    ensures writeFails ==>
      Authenticate(Load(SetAccessToken(s, token, true).stored), false) == Authenticate(Load(s.stored), false)
  {
  }

  // ---------------------------------------------------------------------
  // Query encoding
  // ---------------------------------------------------------------------

  /** `parts.join(sep)`. */
  function Join(parts: seq<string>, sep: char): string
  {
    if |parts| == 0 then ""
    else if |parts| == 1 then parts[0]
    else parts[0] + [sep] + Join(parts[1..], sep)
  }

  function IndexOf(s: string, c: char): (i: nat)
    requires c in s
    ensures i < |s|
    ensures s[i] == c
    ensures c !in s[..i]
  {
    if s[0] == c then 0
    else
      assert s == [s[0]] + s[1..];
      var j := IndexOf(s[1..], c);
      assert s[..j + 1] == [s[0]] + s[1..][..j];
      j + 1
  }

  /** `s.split(sep)`, the way the catalog reads a comma-separated parameter. */
  function Split(s: string, sep: char): (r: seq<string>)
    ensures |r| > 0
    decreases |s|
  {
    if sep in s then
      var i := IndexOf(s, sep);
      [s[..i]] + Split(s[i + 1..], sep)
    else [s]
  }

  /** The first separator of `p + [sep] + rest` is the one after `p` when `p` has none. */
  lemma {:induction false} IndexOfAfterPrefix(p: string, sep: char, rest: string)
    requires sep !in p
    ensures IndexOf(p + [sep] + rest, sep) == |p|
    decreases |p|
  {
    var s := p + [sep] + rest;
    assert s[|p|] == sep;
    if |p| > 0 {
      assert s[0] == p[0];
      assert s[1..] == p[1..] + [sep] + rest;
      IndexOfAfterPrefix(p[1..], sep, rest);
    }
  }

  /** Splitting a joined list gives the list back when no part holds the separator. */
  lemma {:induction false} SplitJoin(parts: seq<string>, sep: char)
    requires |parts| > 0
    requires forall p :: p in parts ==> sep !in p
    ensures Split(Join(parts, sep), sep) == parts
    decreases |parts|
  {
    if |parts| > 1 {
      assert parts[0] in parts;
      SplitStep(parts[0], sep, Join(parts[1..], sep));
      forall q | q in parts[1..] ensures sep !in q {
        assert q in parts;
      }
      SplitJoin(parts[1..], sep);
      assert parts == [parts[0]] + parts[1..];
    }
  }

  /** Splitting stops at the separator that follows a separator-free prefix. */
  lemma SplitStep(p: string, sep: char, rest: string)
    requires sep !in p
    ensures Split(p + [sep] + rest, sep) == [p] + Split(rest, sep)
  {
    var s := p + [sep] + rest;
    assert s[|p|] == sep;
    IndexOfAfterPrefix(p, sep, rest);
    assert s[..|p|] == p;
    assert s[|p| + 1..] == rest;
  }

  function Min(a: int, b: int): int
  {
    if a <= b then a else b
  }

  /** The parameters of the recommendations request. */
  datatype RecommendationQuery = RecommendationQuery(
    seedGenres: string, targetValence: real, targetEnergy: real, limit: nat)

  const RecommendationLimit: nat := 15

  /** No genre name in the list contains a comma. */
  predicate CommaFree(genres: seq<string>)
  {
    forall g :: g in genres ==> ',' !in g
  }

  /** Every mood-table entry lists at least three genres. */
  lemma GenresAtLeastThree(l: Label)
    requires !l.Unknown?
    ensures |ConfigEntry(l).value.genres| >= 3
  {
  }

  /** The two seed genres of every mood-table entry contain no comma. */
  lemma GenresCommaFree(l: Label)
    requires !l.Unknown?
    ensures CommaFree(ConfigEntry(l).value.genres[..2])
  {
    GenresAtLeastThree(l);
  }

  /** The seed parameter built from the first two genres splits back into them. */
  lemma SeedsSplit(genres: seq<string>)
    ensures var seeds := genres[..Min(2, |genres|)];
      |genres| > 0 && CommaFree(seeds) ==> Split(Join(seeds, ','), ',') == seeds
  {
    var seeds := genres[..Min(2, |genres|)];
    if |genres| > 0 && CommaFree(seeds) {
      SplitJoin(seeds, ',');
    }
  }

  /** The request built from a mood-table entry: the first two genres as a
      comma-separated seed list, the midpoints of both ranges, and 15 results. */
  function QueryFor(c: MoodConfig): (q: RecommendationQuery)
    ensures q.limit == RecommendationLimit
    ensures q.targetValence - c.valence.min == c.valence.max - q.targetValence
    ensures q.targetEnergy - c.energy.min == c.energy.max - q.targetEnergy
    ensures ValidConfig(c) ==> c.valence.min <= q.targetValence <= c.valence.max
    ensures ValidConfig(c) ==> c.energy.min <= q.targetEnergy <= c.energy.max
    ensures |c.genres| > 0 && CommaFree(c.genres[..Min(2, |c.genres|)]) ==>
              Split(q.seedGenres, ',') == c.genres[..Min(2, |c.genres|)]
  {
    var seeds := c.genres[..Min(2, |c.genres|)];
    SeedsSplit(c.genres);
    RecommendationQuery(Join(seeds, ','), Midpoint(c.valence), Midpoint(c.energy), RecommendationLimit)
  }

  // ---------------------------------------------------------------------
  // Catalog records
  // ---------------------------------------------------------------------

  /** A record as the catalog returns it; `extra` stands for the further
      fields of the record, which the mapping drops. */
  datatype CatalogRecord = CatalogRecord(
    id: string,
    name: string,
    artists: seq<Artist>,
    album: Album,
    previewUrl: Option<string>,
    spotifyUrl: string,
    extra: map<string, string>)

  /** The catalog's answer to a request: its records, or a failure of any
      kind (network, authorization, server, or a response without a track list). */
  datatype Response = Answered(records: seq<CatalogRecord>) | Failed

  function ToTrack(r: CatalogRecord): (t: Track)
    ensures t.id == r.id && t.name == r.name && t.artists == r.artists
    ensures t.album == r.album && t.previewUrl == r.previewUrl && t.spotifyUrl == r.spotifyUrl
  {
    Track(r.id, r.name, r.artists, r.album, r.previewUrl, r.spotifyUrl)
  }

  /** Maps records to tracks one for one, in order. */
  function MapTracks(rs: seq<CatalogRecord>): (ts: seq<Track>)
    ensures |ts| == |rs|
    ensures forall i :: 0 <= i < |rs| ==>
      ts[i].id == rs[i].id && ts[i].name == rs[i].name && ts[i].artists == rs[i].artists
      && ts[i].album == rs[i].album && ts[i].previewUrl == rs[i].previewUrl
      && ts[i].spotifyUrl == rs[i].spotifyUrl
  {
    seq(|rs|, i requires 0 <= i < |rs| => ToTrack(rs[i]))
  }

  /** Mapping distributes over concatenation of responses. */
  lemma MapTracksAppend(a: seq<CatalogRecord>, b: seq<CatalogRecord>)
    ensures MapTracks(a + b) == MapTracks(a) + MapTracks(b)
  {
    var l := MapTracks(a + b);
    var r := MapTracks(a) + MapTracks(b);
    forall i | 0 <= i < |l| ensures l[i] == r[i] {
      if i < |a| {
        assert (a + b)[i] == a[i];
      } else {
        assert (a + b)[i] == b[i - |a|];
      }
    }
  }

  // ---------------------------------------------------------------------
  // Canned tracks
  // ---------------------------------------------------------------------

  function CannedTrack(id: string, name: string, artist: string, album: string, art: string): Track
  {
    Track(id, name, [Artist(artist)], Album(album, [Image(art, 300, 300)]), None, "#")
  }

  const HappyArt := "https://images.pexels.com/photos/1763075/pexels-photo-1763075.jpeg"
  const SadArt := "https://images.pexels.com/photos/210922/pexels-photo-210922.jpeg"

  const HappyTracks: seq<Track> := [
    CannedTrack("mock1", "Good as Hell", "Lizzo", "Good as Hell", HappyArt),
    CannedTrack("mock2", "Happy", "Pharrell Williams", "GIRL", HappyArt)]

  const SadTracks: seq<Track> := [
    CannedTrack("mock3", "Someone Like You", "Adele", "21", SadArt),
    CannedTrack("mock4", "Mad World", "Gary Jules", "Mad World", SadArt)]

  function Ids(ts: seq<Track>): seq<string>
  {
    seq(|ts|, i requires 0 <= i < |ts| => ts[i].id)
  }

  /** The canned tracks for an emotion: the sad list for "sad", the happy
      list for every other string. None of them has a preview. */
  function MockTracks(emotion: string): (ts: seq<Track>)
    ensures |ts| == 2
    ensures emotion == "sad" ==> Ids(ts) == ["mock3", "mock4"]
    ensures emotion != "sad" ==> Ids(ts) == ["mock1", "mock2"]
    ensures forall t :: t in ts ==> t.previewUrl.None?
  {
    if emotion == "sad" then SadTracks else HappyTracks
  }

  /** What reading `mockTracks[s]` yields on the object literal. */
  datatype CannedRead = CannedList(tracks: seq<Track>) | CannedInherited(member: string)

  /** `getMockTracks` as written: the `||` default replaces only a falsy read,
      so an inherited member of the object literal comes back instead of the
      happy list. */
  function MockTracksAsWritten(emotion: string): (r: CannedRead)
    ensures r.CannedList? <==> !InheritedName(emotion)
    ensures r.CannedList? ==> r.tracks == MockTracks(emotion)
    ensures InheritedName(emotion) ==> r == CannedInherited(emotion)
  {
    if emotion == "happy" then CannedList(HappyTracks)
    else if emotion == "sad" then CannedList(SadTracks)
    else if InheritedName(emotion) then CannedInherited(emotion)
    else CannedList(HappyTracks)
  }

  /** The discrepancy: for "constructor" the written lookup returns the
      inherited constructor function, while the intended one returns the happy list. */
  lemma MockTracksInheritedName()
    ensures MockTracksAsWritten("constructor") == CannedInherited("constructor")
    ensures MockTracks("constructor") == HappyTracks
  {
  }

  // ---------------------------------------------------------------------
  // Recommendations
  // ---------------------------------------------------------------------

  /** Where a playlist came from. */
  datatype Served = Catalog | Canned

  /** The playlist, the request sent (if any) and the tier that served it. */
  datatype Recommendation = Recommendation(playlist: Playlist, query: Option<RecommendationQuery>, served: Served)

  /** The recommendation policy. Without a token the canned tracks are served
      and nothing is sent. With a token an unknown emotion has no table entry,
      which fails before the request; a known one sends `QueryFor` of its
      entry, and any failure of the answer falls back to the canned tracks. */
  function GetRecommendations(s: Service, emotion: string, response: Response): (r: Recommendation)
    ensures r.playlist.emotion == emotion
    ensures !HasToken(s) ==> r.query.None? && r.served == Canned
    ensures r.query.Some? <==> HasToken(s) && KnownName(emotion)
    ensures r.query.Some? ==> r.query.value == QueryFor(GetEmotionConfig(emotion))
    ensures r.query.Some? ==> Split(r.query.value.seedGenres, ',') == GetEmotionConfig(emotion).genres[..2]
    ensures r.served == Catalog <==> r.query.Some? && response.Answered?
    ensures r.served == Catalog ==> r.playlist.tracks == MapTracks(response.records)
    ensures r.served == Canned ==> r.playlist.tracks == MockTracks(emotion) && |r.playlist.tracks| > 0
  {
    if !HasToken(s) then
      Recommendation(Playlist(MockTracks(emotion), emotion), None, Canned)
    else
      match ConfigEntry(Parse(emotion))
      case None =>
        Recommendation(Playlist(MockTracks(emotion), emotion), None, Canned)
      case Some(c) =>
        GenresAtLeastThree(Parse(emotion));
        GenresCommaFree(Parse(emotion));
        var q := QueryFor(c);
        match response
        case Answered(records) => Recommendation(Playlist(MapTracks(records), emotion), Some(q), Catalog)
        case Failed => Recommendation(Playlist(MockTracks(emotion), emotion), Some(q), Canned)
  }

  /** Without a token the playlist does not depend on the catalog's answer. */
  lemma NoTokenIgnoresCatalog(s: Service, emotion: string, a: Response, b: Response)
    requires !HasToken(s)
    ensures GetRecommendations(s, emotion, a) == GetRecommendations(s, emotion, b)
  {
  }

  // ---------------------------------------------------------------------
  // Genre search
  // ---------------------------------------------------------------------

  /** The parameters of the search request. */
  datatype SearchQuery = SearchQuery(q: string, kind: string, limit: int, market: string)

  const DefaultSearchLimit: int := 20

  datatype SearchResult = NotAuthenticated(message: string) | Found(tracks: seq<Track>, query: Option<SearchQuery>)

  /** `floor(draw * n)` for a draw in [0,1) is a valid index into n items. */
  lemma DrawIndex(draw: real, n: nat)
    requires 0.0 <= draw < 1.0 && n > 0
    ensures 0 <= (draw * n as real).Floor < n
  {
    assert (1.0 - draw) * (n as real) > 0.0;
    assert draw * (n as real) >= 0.0;
  }

  /** Searches one genre of the emotion's entry, chosen by `draw`. Without a
      token the search is refused (it does not fall back); every failure after
      that point serves the canned tracks. An absent `limit` means 20. */
  function SearchTracks(s: Service, emotion: string, limit: Option<int>, draw: real, response: Response): (r: SearchResult)
    requires 0.0 <= draw < 1.0
    ensures r.NotAuthenticated? <==> !HasToken(s)
    ensures r.NotAuthenticated? ==> r.message == "Not authenticated with Spotify"
    ensures r.Found? ==> (r.query.Some? <==> KnownName(emotion))
    ensures r.Found? && r.query.Some? ==>
      && r.query.value.limit == (if limit.Some? then limit.value else DefaultSearchLimit)
      && r.query.value.kind == "track" && r.query.value.market == "US"
      && exists g :: g in GetEmotionConfig(emotion).genres && r.query.value.q == "genre:" + g
    ensures r.Found? && !(r.query.Some? && response.Answered?) ==> r.tracks == MockTracks(emotion)
    ensures r.Found? && r.query.Some? && response.Answered? ==> r.tracks == MapTracks(response.records)
  {
    if !HasToken(s) then NotAuthenticated("Not authenticated with Spotify")
    else
      match ConfigEntry(Parse(emotion))
      case None => Found(MockTracks(emotion), None)
      case Some(c) =>
        DrawIndex(draw, |c.genres|);
        var genre := c.genres[(draw * |c.genres| as real).Floor];
        var q := SearchQuery("genre:" + genre, "track", if limit.Some? then limit.value else DefaultSearchLimit, "US");
        match response
        case Answered(records) => Found(MapTracks(records), Some(q))
        case Failed => Found(MockTracks(emotion), Some(q))
  }

  /** With a token, the genre search serves the same tracks as the
      recommendation call for the same emotion and catalog answer: both use
      the catalog's records exactly when a request goes out for a known label
      and it answers, and the canned tracks otherwise. */
  lemma SearchAgreesWithRecommendations(s: Service, emotion: string, limit: Option<int>, draw: real, response: Response)
    requires 0.0 <= draw < 1.0
    requires HasToken(s)
    ensures var r := SearchTracks(s, emotion, limit, draw, response);
      r.Found? && r.tracks == GetRecommendations(s, emotion, response).playlist.tracks
  {
  }
}

=== FILE: types.dfy ===
/** The records the pipeline passes around: emotion labels and scores,
    detection results, catalog tracks, playlists and the camera state. */
module Types {

  datatype Option<+T> = None | Some(value: T)

  /** An emotion label. The seven named cases are the expression categories
      of the face detector; `Unknown` carries any other string, so that the
      lookups with a default can be stated. */
  datatype Label =
    | Happy | Sad | Angry | Surprised | Fearful | Disgusted | Neutral
    | Unknown(text: string)

  /** The seven known labels in the fixed order in which the aggregator lists them. */
  const Labels: seq<Label> := [Happy, Sad, Angry, Surprised, Fearful, Disgusted, Neutral]

  /** The string the application uses for a label. */
  function Name(l: Label): string
  {
    match l
    case Happy => "happy"
    case Sad => "sad"
    case Angry => "angry"
    case Surprised => "surprised"
    case Fearful => "fearful"
    case Disgusted => "disgusted"
    case Neutral => "neutral"
    case Unknown(t) => t
  }

  predicate KnownName(s: string)
  {
    s == "happy" || s == "sad" || s == "angry" || s == "surprised"
    || s == "fearful" || s == "disgusted" || s == "neutral"
  }

  /** A label value that `Parse` can produce: an `Unknown` never wraps one of the seven names. */
  predicate Canonical(l: Label)
  {
    l.Unknown? ==> !KnownName(l.text)
  }

  /** Reads a label from its string; every string is accepted. */
  function Parse(s: string): (l: Label)
    ensures Name(l) == s
    ensures Canonical(l)
    ensures l.Unknown? <==> !KnownName(s)
  {
    if s == "happy" then Happy
    else if s == "sad" then Sad
    else if s == "angry" then Angry
    else if s == "surprised" then Surprised
    else if s == "fearful" then Fearful
    else if s == "disgusted" then Disgusted
    else if s == "neutral" then Neutral
    else Unknown(s)
  }

  /** Parsing the name of a label gives the label back exactly when the label is canonical. */
  lemma ParseName(l: Label)
    ensures Parse(Name(l)) == l <==> Canonical(l)
  {
    if Canonical(l) {
      match l
      case Unknown(t) =>
        assert !KnownName(t);
      case _ =>
    }
  }

  /** Names are distinct on canonical labels. */
  lemma NameInjective(a: Label, b: Label)
    requires Canonical(a) && Canonical(b)
    ensures Name(a) == Name(b) ==> a == b
  {
    ParseName(a);
    ParseName(b);
  }

  /** One entry of an emotion ranking (the `Emotion` record of the source). */
  datatype EmotionScore = EmotionScore(emotion: Label, confidence: real)

  /** One detection result: the dominant label, its confidence and the list of entries. */
  datatype DetectedEmotion = DetectedEmotion(dominant: Label, confidence: real, all: seq<EmotionScore>)

  datatype Artist = Artist(name: string)
  datatype Image = Image(url: string, height: int, width: int)
  datatype Album = Album(name: string, images: seq<Image>)

  /** A catalog track; `spotifyUrl` is the `external_urls.spotify` link and
      `previewUrl` is `None` where the catalog gives `null`. */
  datatype Track = Track(
    id: string,
    name: string,
    artists: seq<Artist>,
    album: Album,
    previewUrl: Option<string>,
    spotifyUrl: string)

  /** The tracks served for one requested emotion string. */
  datatype Playlist = Playlist(tracks: seq<Track>, emotion: string)

  datatype CameraState = CameraState(isActive: bool, hasPermission: bool, error: Option<string>)
}
